=== FILE: README.md ===
# Enigma cipher machine — a Dafny model

This project models the cipher engine of a Java simulator of the Enigma
machine, together with the two computing parts of its driver.

**Permutations.**
- A permutation of an alphabet is stored as the list of its cycle strings.
- It is decoded from cycle notation such as `(AELTPHQXRU) (BKNW) (S)`.
- It can be applied forwards or backwards, to a symbol or to an index.

**Rotors.**
- A rotor is a permutation at a position.
- A moving rotor advances and reports whether it stands at a notch.

**The machine.**
- It keeps a catalog of rotors keyed by upper-cased name.
- It fills its slots from that catalog.
- It accumulates the position letters it is given.
- It has an optional plugboard.
- Converting a symbol first steps the rotors, then sends the signal:
  - through the plugboard;
  - forward through every slot down to the reflector in slot 0;
  - back through slots 1 to the rightmost;
  - through the plugboard again.

**The driver.**
- It prints a converted message in groups of five.
- It derives the alphabet's bounds from the first configuration token.

**Modules:**
- `Text`: Java's `indexOf`, ASCII upper-casing and the `\s` class.
- `Options`
- `Alphabets`
- `CycleParsing`
- `Permutations`
- `Rotors`
- `Machines`
- `Stepping`
- `Signals`
- `Messages`
- `Driver`
- `UnitVectors`: the repository's permutation unit test.

**State.** The model is written in pure functions over immutable values. Java mutates rotor objects; here each operation returns the updated machine instead. A slot holds a catalog name rather than a rotor. This way, a rotor inserted into two slots is one rotor seen from both, exactly as the Java list of shared objects behaves.

**Rotor stepping.** The stepping loop is kept as written:
- for `i` from `numRotors - 1` down to `numPawls`, slot `i - 1` advances when slot `i` is at a notch;
- then slots `i - 1` and `i - 2` advance when slot `i - 1` is at a notch;
- the notch tests read the positions as they stand at that moment.

`Stepping.DoubleStep` shows the usual double step of the middle rotor, under the conditions its row lists. `Stepping.LiveNotch` shows how this loop differs from a machine that reads every notch before moving anything: a middle rotor that reaches its notch during the step is advanced a second time in that same step.

**Errors and Java semantics.**
- `convert(String)` hands each symbol that is not a space to `Alphabet.toInt`, which is not part of this model. The model treats a symbol outside the alphabet as an error: `ConvertMessage` returns `None`.
- Java's `%` truncates toward zero. `Permutations.JavaRem` computes it from the dividend's magnitude and gives it the dividend's sign.

## Model

| member | source | states |
|---|---|---|
| CycleParsing.ListOfCycles | Permutation.java:35-57 | the stored list is the decoded token cycles, one per scanner token and in order, followed by the appended singletons |
| CycleParsing.ListOfCyclesShape | Permutation.java:35-57 | no stored cycle holds a parenthesis, and each cycle after the tokens' is one letter that the alphabet has and the text does not mention |
| CycleParsing.EveryLetterListed | Permutation.java:35-57 | every letter A-Z of the alphabet lies in some stored cycle, whether or not the text mentions it |
| CycleParsing.Tokens | Permutation.java:37-39 | the scanner's tokens hold no '(' and, joined, are the text with every '(' removed |
| CycleParsing.PiecesJoin | Permutation.java:37-39 | joining the pieces cut at '(' with '(' gives the text back; as no piece holds '(', this fixes every cut |
| CycleParsing.TokensSlice | Permutation.java:37-39 | the scanner's tokens are the pieces in order, less the empty piece before a leading '(' and the one after a trailing '('; an empty text has no token |
| CycleParsing.CycleOf | Permutation.java:40-41 | a decoded token holds no parenthesis, and begins and ends above U+0020 |
| CycleParsing.CycleOfSlice | Permutation.java:40-41 | a decoded token is a contiguous run of the token with both parentheses removed, and every character cut from either end is at or below U+0020 |
| CycleParsing.TrimSlice | Permutation.java:41 | `trim` keeps a contiguous run and cuts only characters at or below U+0020 |
| CycleParsing.CycleOfKeeps | Permutation.java:40-41 | decoding a token keeps each of its characters above U+0020 other than the parentheses |
| CycleParsing.TrimKeeps | Permutation.java:41 | `trim` keeps every character above U+0020 |
| CycleParsing.ParseSpaced | Permutation.java:35-57 | decoding cycle notation with any run of blanks after each group gives back exactly the cycles written, followed by a singleton cycle for each letter A-Z in the alphabet that the text does not mention |
| CycleParsing.ParseFormat | Permutation.java:35-57 | the same for the single-blank form, as the unit test writes it |
| CycleParsing.MissingLetters | Permutation.java:45-55 | every appended cycle is one letter of the alphabet absent from the text |
| CycleParsing.MissingLettersComplete | Permutation.java:45-55 | every letter of the alphabet absent from the text is appended |
| CycleParsing.CyclesOfGroups | Permutation.java:39-44 | stripping the parentheses and trimming each scanner token of a spaced cycle list recovers each cycle |
| CycleParsing.PiecesSpaced | Permutation.java:37 | tokenising a spaced cycle list at '(' yields an empty first piece and then one group per cycle |
| Permutations.NewPermutation | Permutation.java:23-27 | a new permutation keeps its alphabet, stores no parenthesis in any cycle, and has every letter A-Z of its alphabet in some cycle |
| Permutations.JavaRem | Permutation.java:71 | Java's remainder lies strictly between minus and plus the divisor, takes the sign of the dividend, and differs from the dividend by a multiple of the divisor |
| Permutations.Wrap | Permutation.java:70-76 | `wrap` always lands in [0, size) |
| Permutations.WrapMod | Permutation.java:70-76 | `wrap` equals the mathematical residue modulo the size, negative arguments included |
| Permutations.WrapPeriodic | Permutation.java:70-76 | adding any multiple of the size does not change `wrap` |
| Permutations.Successor | Permutation.java:113-129 | `permute(char)` returns the next symbol of the first cycle containing the symbol (wrapping to its start), and the symbol itself when no cycle has it |
| Permutations.Predecessor | Permutation.java:134-147 | `invert(char)` returns the previous symbol of the first cycle containing the symbol (wrapping to its end), or the symbol itself |
| Permutations.Permute | Permutation.java:89-95 | `permute(int)` lies in [0, size) and is the index of the successor of the symbol at the wrapped input |
| Permutations.Invert | Permutation.java:101-107 | `invert(int)` lies in [0, size) and is the index of the predecessor of the symbol at the wrapped input |
| Permutations.PermuteWrap | Permutation.java:89-107 | both int forms depend only on the input modulo the size |
| Permutations.InvertAfterPermute | Permutation.java:113-147 | with disjoint, duplicate-free cycles, `invert(char)` undoes `permute(char)` on every character |
| Permutations.PermuteAfterInvert | Permutation.java:113-147 | with disjoint, duplicate-free cycles, `permute(char)` undoes `invert(char)` on every character |
| Permutations.InvertPermute | Permutation.java:89-107 | for a well-formed permutation the int forms are mutually inverse on [0, size) |
| Permutations.StaysInAlphabet | Permutation.java:113-147 | the character forms map alphabet symbols to alphabet symbols |
| Permutations.Derangement | Permutation.java:160-167 | `derangement()` is true exactly when no stored cycle has length one |
| Permutations.DerangementNoFixedPoint | Permutation.java:156-167 | for disjoint cycles, `derangement()` holds exactly when no written symbol maps to itself |
| Permutations.DerangementMissesUnwritten | Permutation.java:156-167 | as written: over the alphabet "AB1", the cycles "(AB)" decode to the one cycle "AB" and pass `derangement()`, yet '1' maps to itself |
| Permutations.DerangementOver | Permutation.java:156-158 | the corrected test implies the written one and that every symbol of the alphabet lies in some cycle |
| Permutations.DerangementOverFixedPointFree | Permutation.java:156-158 | for disjoint cycles over the alphabet, the corrected test holds exactly when no symbol of the alphabet maps to itself |
| Permutations.PairsInvolutive | Permutation.java:113-129 | cycles of length at most two (a reflector's or a plugboard's pairs) give a permutation that is its own inverse |
| Permutations.InvolutiveTwice | Permutation.java:89-95 | an involutive permutation applied twice through the int form is the identity on [0, size) |
| Rotors.NewRotor | Rotor.java:11-15 | a new rotor keeps its name and permutation, starts at position 0 and does not rotate |
| Rotors.NewMovingRotor | MovingRotor.java:15-18 | a new moving rotor keeps its name, permutation and notch string, starts at position 0 and rotates |
| Rotors.SetInt | Rotor.java:53-55 | `set(int)` changes the position to the given value and nothing else |
| Rotors.SetChar | Rotor.java:58-60 | `set(char)` moves to the position whose alphabet symbol is the given character, and changes nothing else |
| Rotors.ConvertForward | Rotor.java:64-71 | `convertForward` lies in [0, size), and the output shifted by the position is the permutation of the input shifted by the position |
| Rotors.ConvertBackward | Rotor.java:75-82 | the same with the inverse permutation |
| Rotors.BackwardForward | Rotor.java:64-82 | for a well-formed permutation, `convertBackward` undoes `convertForward` at any position |
| Rotors.ForwardBackward | Rotor.java:64-82 | `convertForward` undoes `convertBackward` at any position |
| Rotors.ForwardTwice | Rotor.java:64-71 | a rotor with an involutive permutation undoes itself going forward twice |
| Rotors.ForwardAtZero | Rotor.java:64-82 | at position 0 the rotor applies its permutation unshifted |
| Rotors.Advance | MovingRotor.java:20-23 | a moving rotor advances by one modulo the size, and a non-moving rotor is unchanged (Rotor.java:91-92) |
| Rotors.AdvanceMod | MovingRotor.java:20-23 | one advance adds one to the position modulo the size |
| Rotors.AdvanceNMod | MovingRotor.java:20-23 | `k` advances add `k` to the position modulo the size |
| Rotors.FullTurn | MovingRotor.java:20-23 | advancing a moving rotor as many times as its alphabet is long brings it back to where it started |
| Rotors.AtNotch | MovingRotor.java:25-33 | a moving rotor is at a notch exactly when its current symbol occurs in the notch string after its first character; a non-moving rotor never is |
| Rotors.AtNotchPositions | MovingRotor.java:25-33 | being at a notch is membership of the position in the set of notch positions |
| Rotors.BaseRotor | Rotor.java:38-92 | a non-moving rotor does not advance, is never at a notch, does not rotate and does not reflect |
| Machines.BuildCatalog | Machine.java:26-28 | every rotor is filed under its upper-cased name, and every entry is one of the given rotors |
| Machines.CatalogLast | Machine.java:26-28 | of rotors whose names coincide when upper-cased, the last one given is kept |
| Machines.NewMachine | Machine.java:21-29 | a new machine holds the given alphabet, slot and pawl counts and catalog, with no slots, settings or plugboard |
| Machines.InsertRotors | Machine.java:57-70 | inserting appends slots only, only for names in the catalog, and at most one per name |
| Machines.InsertRotorsAppend | Machine.java:57-70 | two insertions in a row equal one insertion of both name lists |
| Machines.InsertKnown | Machine.java:57-70 | when every name is in the catalog, the slots gain exactly the upper-cased names in order |
| Machines.InsertUnknown | Machine.java:57-70 | names absent from the catalog are silently ignored |
| Machines.SetRotors | Machine.java:77-87 | `setRotors` appends the new letters to the stored settings, changes only rotor positions in the catalog, and leaves the slots and plugboard alone |
| Machines.SetLoopSets | Machine.java:83-86 | with distinct slot names, slot `k` ends at the position of stored setting `k - 1` |
| Machines.SetLoopSameRotors | Machine.java:83-86 | the setting loop changes nothing but rotor positions |
| Machines.SetLoopUntouched | Machine.java:83-86 | a rotor in no slot the loop visits keeps its position |
| Machines.SetRotorsIgnoresLater | Machine.java:77-87 | once earlier calls have stored enough letters, a later call's letters have no effect on positions (settings accumulate and the loop reads the first ones) |
| Machines.SetRotorsSlots | Machine.java:77-87 | slot `k >= 1` shows the stored letter `k - 1`, and the reflector in slot 0 keeps its position |
| Machines.SetPlugboard | Machine.java:92-94 | the plugboard is replaced and nothing else changes |
| Stepping.AdvanceSlot | Machine.java:105 | advancing a slot advances the rotor named in it and keeps the machine ready |
| Stepping.Step | Machine.java:103-112 | a step keeps the machine ready and changes only the catalog's rotors |
| Stepping.StepSame | Machine.java:103-112 | a step changes rotor positions only |
| Stepping.StepAt | Machine.java:104-110 | the loop body for slot `i` keeps the machine ready, changes only the catalog, and changes nothing when neither slot `i` nor slot `i - 1` is at a notch |
| Stepping.StepAtRotor | Machine.java:104-110 | the loop body changes at most the position of each rotor |
| Stepping.StepAtFrame | Machine.java:104-110 | the loop body for slot `i` leaves every rotor that sits in no slot below `i` as it was |
| Stepping.StepLoop | Machine.java:103-111 | the loop keeps the machine ready and changes only the catalog, keeping its names |
| Stepping.StepLoopRotor | Machine.java:103-111 | the loop changes at most the position of each rotor |
| Stepping.StepLoopFrame | Machine.java:103-111 | the loop from slot `i` down leaves every rotor that sits in no slot below `i` as it was |
| Stepping.StepLoopQuiet | Machine.java:103-111 | with no slot from `i` down to `numPawls - 1` at a notch, the loop changes nothing |
| Stepping.LoopReads | Machine.java:103-107 | the slots the loop reads on every turn run from `numPawls - 1` up to `numRotors - 1`, and `numPawls - 1` is among them whenever the loop runs |
| Stepping.ZeroPawlsReadsBelow | Machine.java:17-18 | with no pawls and at least one slot, the loop reads slot -1 |
| Stepping.LoopReadsInRange | Machine.java:103-107 | with at least one pawl, every slot the loop reads on every turn is in range |
| Stepping.RightmostOnce | Machine.java:103-112 | the rightmost slot, when its rotor sits in no other slot, advances exactly once per step |
| Stepping.NoNotchOnlyRightmost | Machine.java:103-112 | when no slot the loop reads is at a notch, only the rightmost rotor moves |
| Stepping.DoubleStep | Machine.java:103-112 | in a five-slot, three-pawl machine with distinct slot names, if slot 4 is not at a notch, slot 3 is at one, and neither slot 3 nor slot 2 is at a notch one position on, then one step advances slots 2, 3 and 4 by one each (see `LiveNotch` for slot 3 reaching its notch during the step) |
| Stepping.LiveNotch | Machine.java:103-112 | when the rightmost rotor's notch moves the middle rotor onto its own notch, the loop advances the middle rotor a second time in the same step |
| Signals.Plug | Machine.java:114-116 | the plugboard maps into the alphabet, and is the identity when absent |
| Signals.Forward | Machine.java:117-120 | the forward run through the slots maps into the alphabet |
| Signals.Backward | Machine.java:121-124 | the backward run through the slots maps into the alphabet |
| Signals.ForwardPass | Machine.java:117-120 | the forward loop computes the forward run from the rightmost slot to slot 0 |
| Signals.BackwardPass | Machine.java:121-124 | the backward loop computes the backward run from slot 1 to the rightmost |
| Signals.SignalLoop | Machine.java:114-128 | the path as the Java code runs it equals the plugboard, forward run, backward run, plugboard composition |
| Signals.Signal | Machine.java:114-128 | the signal path maps every input into [0, size) |
| Signals.ReciprocalSame | Machine.java:114-128 | whether the path is reciprocal depends on the wiring only, not on rotor positions |
| Signals.BackwardForward | Machine.java:117-124 | going back through slots 1 to `i` undoes going forward through them |
| Signals.ForwardBackward | Machine.java:117-124 | going forward through slots `i` to 1 undoes going back through them |
| Signals.SignalInvolution | Machine.java:114-128 | with bijective rotors and an involutive reflector and plugboard, the path at fixed positions is its own inverse |
| Messages.Convert | Machine.java:101-129 | `convert(int)` leaves a ready machine that differs only in rotor positions, and an index in the alphabet |
| Messages.ConvertMessage | Machine.java:135-149 | a successful conversion has the message's length and leaves a ready machine that differs only in its catalog |
| Messages.ConvertSymbol | Machine.java:138-146 | one turn of the loop fails exactly for a non-space symbol outside the alphabet; otherwise it yields one output symbol |
| Messages.ConvertMessageDefined | Machine.java:135-149 | a message converts exactly when each symbol is a space or in the alphabet |
| Messages.ConvertMessagePrefix | Machine.java:135-149 | converting a prefix gives the prefix of the conversion |
| Messages.ConvertSymbolSteps | Machine.java:140-145 | a space leaves the rotors alone; any other symbol steps them once |
| Messages.ConvertMessageSteps | Machine.java:135-149 | after a message the rotors stand at the positions reached by one step per non-space symbol |
| Messages.ConvertMessageAt | Machine.java:135-149 | output symbol `i` is a space for a space, and otherwise the signal of symbol `i` at the positions after one step per non-space symbol up to and including it |
| Messages.ConvertMessageReciprocal | Machine.java:135-149 | converting a message keeps the machine reciprocal |
| Messages.ConvertSymbolInvolution | Machine.java:138-146 | from the same positions, a symbol's conversion converts back to the symbol and ends at the same positions |
| Messages.ConvertMessageInvolution | Machine.java:135-149 | from the same starting positions, converting the conversion of a message gives the message back and ends at the same positions |
| Messages.ConvertString | Machine.java:135-149 | the symbol-by-symbol loop computes the whole-message conversion, failing at a symbol outside the alphabet |
| Driver.PrintMessageLine | Main.java:263-273 | the printed line is as long as the message without whitespace plus one separator per group of up to five |
| Driver.PrintMessageLoop | Main.java:263-273 | the printing loop produces the grouped line |
| Driver.PrintGroup | Main.java:265-271 | group `k` of the output is symbols `5k` onwards, five of them or the remainder, followed by a space, or by a line end after the last group |
| Driver.EmitLength | Main.java:265-271 | the output is the text's length plus one separator per group of up to five |
| Driver.PrintMessageContent | Main.java:263-273 | the printed line without its separators is the message without whitespace, in upper case |
| Driver.PrintMessageEmpty | Main.java:263-273 | a whitespace-only message prints nothing, not even a line end, and any other message ends in a line end |
| Driver.AlphabetBounds | Main.java:132-161 | a token of the form `X-Y` gives X and Y as bounds; any other token gives its smallest and its largest symbol |
| Driver.BoundsCover | Main.java:144-161 | the character range built from a non-range token's bounds holds every symbol of the token |
| Alphabets.RangeIndex | Main.java:143 | a character range holds exactly the symbols between its ends, and a symbol's index is its distance from the first |
| UnitVectors.CharVectors | UnitTest.java:30-36 | the test's character expectations: U to A, A back to U, S fixed both ways, B to K, V to I both ways |
| UnitVectors.IntVectors | UnitTest.java:37-38 | `permute(5)` is 6 and `invert(22)` is 13 over A-Z |
| UnitVectors.DerangementVectors | UnitTest.java:39-40 | the first test permutation, with its singleton (S), is not a derangement; the second is |
| UnitVectors.Decode1 | UnitTest.java:28 | the first test string decodes to the expected cycles |
| UnitVectors.Decode2 | UnitTest.java:29 | the second test string decodes to the expected cycles |

## Left out

- Reading the configuration and input files, `Scanner` handling, printing to a stream and exceptions: the model covers the computing parts of Main.java only.
- The rest of Main.java beyond the alphabet bounds and the output layout: setting up rotors from the configuration, and the message loop.
- `Alphabet` and `CharacterRange`: these classes are not part of this model. An alphabet is modelled as a duplicate-free sequence of symbols, with index equal to position. A character range is its run of consecutive code points, which must not cross the surrogate block.
- `FixedRotor` and `Reflector` are not part of this model. They behave as the base rotor: they do not advance and are never at a notch. `Rotors.Reflecting` is false for every rotor modelled.
- `EnigmaException` is not modelled. Main.java does not check that slot 0 holds a reflector, that there are enough slots, or that rotor names differ, and the Machine constructor does not check its counts. `Machines.Ready` is the model's own precondition for every operation that indexes slots: at least one pawl, filled slots for every rotor position, rotors over the machine's alphabet, and, with a single pawl, a non-moving rotor in slot 0. The last condition covers `get(i - 2)` at Machine.java:107: with one pawl, the turn for slot 1 reads slot -1 if slot 0 is at a notch. Under these conditions the Java code stays in range.
- `Alphabet.toInt` is not part of this model, so what it does with a symbol outside the alphabet is not known here. The model makes these choices:
- `Messages.ConvertMessage` returns `None` at a non-space symbol outside the alphabet.
- `Rotors.SetChar` requires the character to be in the rotor's alphabet.
- `Permutations.Permute` requires every symbol written in the cycles to be in the alphabet (`InAlphabet`). Java accepts any cycle text, and the outcome for other symbols depends on `toInt`.
- `Permutations.Invert` requires `InAlphabet`, for the same reason.
- `Rotors.ConvertForward` requires `InAlphabet` of its permutation, for the same reason.
- `Rotors.ConvertBackward` requires `InAlphabet` of its permutation, for the same reason.
- `Stepping.StepLoop` states that the loop changes only the catalog. That it changes only rotor positions is stated rotor by rotor in `Stepping.StepLoopRotor`.
- `Permutations.DerangementNoFixedPoint` covers only symbols written in a cycle. A symbol of the alphabet that no cycle writes and that is not a letter maps to itself while `derangement()` answers true; see "## Findings". The full statement is `Permutations.DerangementOverFixedPointFree`.
- `Driver.AlphabetBounds` works on Dafny characters, which are Unicode scalar values, while Main.java:147-158 walks the token's UTF-16 code units with `charAt`. For a token holding a character above U+FFFF the two differ: Java sees its two surrogate halves and may take a surrogate as a bound, and the range it then builds can cross the surrogate block, which `Alphabets.Range` does not represent. For tokens within U+0000 to U+FFFF the bounds agree.
- `Driver.PrintMessageLine` ends the line with `\n`. Java's `println` writes the platform's line separator, which the model does not vary.
- `Machines.SetRotors` requires `setting.length() == numRotors() - 1`, the length Java only asserts. It also requires every slot the loop sets to hold a rotor that accepts the letter.
- `Text.Upper`: upper-casing is modelled for ASCII letters only. Other characters are kept as they are.
- 32-bit `int` overflow is not modelled. Positions and indices stay far below the limits of Java's `int`.
- HashMap iteration order in `insertRotors` does not matter. Keys are distinct, so at most one entry matches each name, and the model appends it directly.
- The `toString` methods, `Rotor.name()`, `permutation()` and other plain getters carry no logic worth stating.
- MainTest.java checks whole runs against files, so it is not modelled.

## Findings

| source | as written | input that shows it | evidently intended | confidence | as-written member | corrected member |
|---|---|---|---|---|---|---|
| Permutation.java:156-167 | the Javadoc promises that no value maps to itself, but `derangement()` only looks for stored cycles of length one | the alphabet "AB1" with the cycles "(AB)": the digit '1' is in no cycle and is not a letter, so no singleton is stored for it; the test answers true while '1' maps to itself | also require every symbol of the alphabet to lie in some cycle | not executed | Permutations.DerangementMissesUnwritten | Permutations.DerangementOverFixedPointFree |
| Machine.java:17-18 | the constructor documents `0 <= PAWLS`, and the stepping loop at Machine.java:103-107 runs `i` down to `numPawls`, reading `get(i - 1)` on every turn | `numPawls = 0` with at least one rotor slot: the turn `i = 0` reads `get(-1)`, so every `convert` throws | at least one pawl, so that every slot the loop reads is in range | not executed | Stepping.ZeroPawlsReadsBelow | Stepping.LoopReadsInRange |

`Stepping.LoopReads` lists the slots the loop reads on every turn. The rest of the model keeps at least one pawl, because `Machines.Ready` requires `1 <= numPawls`.

=== FILE: alphabets.dfy ===
/** The alphabet every permutation and rotor works over: an ordered,
    duplicate-free sequence of symbols. A symbol's integer index is its
    position in the sequence. */
module Alphabets {
  import opened Text

  datatype Alphabet = Alphabet(chars: seq<char>) {

    /** Every symbol occurs once, so index and symbol determine each other. */
    predicate Valid() {
      Distinct(chars)
    }

    function Size(): nat {
      |chars|
    }

    predicate Contains(c: char) {
      c in chars
    }

    /** The symbol at index `i`. */
    function ToChar(i: int): (c: char)
      requires 0 <= i < Size()
      ensures Contains(c)
    {
      chars[i]
    }

    /** The index of symbol `c`. */
    function ToInt(c: char): (i: int)
      requires Contains(c)
      ensures 0 <= i < Size()
      ensures ToChar(i) == c
    {
      IndexOf(chars, c)
    }
  }

  /** In a valid alphabet, `ToInt` undoes `ToChar`; with `ToInt`'s own
      contract this makes the two mutually inverse bijections. */
  lemma ToIntToChar(a: Alphabet, i: int)
    requires a.Valid()
    requires 0 <= i < a.Size()
    ensures a.ToInt(a.ToChar(i)) == i
  {
    IndexOfDistinct(a.chars, i);
  }

  /** The alphabet of the consecutive symbols `first` to `last`, the
      stand-in for a character range. The range may not cross the
      surrogate block, whose code points are not symbols. */
  function Range(first: char, last: char): (a: Alphabet)
    requires first <= last
    requires last as int < 0xD800 || 0xDFFF < first as int
    ensures a.Size() == last as int - first as int + 1
    ensures forall i :: 0 <= i < a.Size() ==> a.chars[i] as int == first as int + i
  {
    Alphabet(seq(last as int - first as int + 1, i requires 0 <= i <= last as int - first as int =>
      (first as int + i) as char))
  }

  /** A range holds exactly the symbols between its ends, each once, and a
      symbol's index is its distance from the first. */
  lemma RangeIndex(first: char, last: char, c: char)
    requires first <= last
    requires last as int < 0xD800 || 0xDFFF < first as int
    ensures Range(first, last).Valid()
    ensures Range(first, last).Contains(c) <==> first <= c <= last
    ensures first <= c <= last ==> Range(first, last).ToInt(c) == c as int - first as int
  {
    var a := Range(first, last);
    if first <= c <= last {
      assert a.chars[c as int - first as int] == c;
    }
  }

  /** The letters A through Z, in order. */
  const Letters: string := "ABCDEFGHIJKLMNOPQRSTUVWXYZ"

  /** The letters are the capitals `A` to `Z`. */
  lemma LetterCapital(c: char)
    requires c in Letters
    ensures 'A' <= c <= 'Z'
  {
    var i :| 0 <= i < |Letters| && Letters[i] == c;
  }
}

=== FILE: cycle_parsing.dfy ===
/** Decoding of cycle notation such as "(AELTPHQXRU) (BKNW) (S)" into the
    list of cycle strings a permutation stores (Permutation.java:35-57).

    The tokeniser is a `java.util.Scanner` whose delimiter is a single
    '(': one delimiter at the current position is skipped before each
    token, a token runs up to the next '(' (so two adjacent '(' give an
    empty token), and nothing is returned once only a delimiter or
    nothing remains. */
module CycleParsing {
  import opened Text
  import opened Alphabets

  /** `s` cut at every '(', empty pieces included (as `split` would). */
  function Pieces(s: string): (ps: seq<string>)
    ensures |ps| >= 1
    ensures forall i :: 0 <= i < |ps| ==> '(' !in ps[i]
    decreases |s|
  {
    if '(' in s then
      var k := IndexOf(s, '(');
      IndexOfBefore(s, '(');
      [s[..k]] + Pieces(s[k + 1..])
    else
      [s]
  }

  /** The tokens the Scanner yields: the piece before a leading '(' and the
      piece after a trailing '(' are empty and are never returned. */
  function Tokens(s: string): (ts: seq<string>)
    ensures forall i :: 0 <= i < |ts| ==> '(' !in ts[i]
    ensures Flatten(ts) == RemoveChar(s, '(')
  {
    PiecesContent(s);
    DropEmptyEnds(Pieces(s))
  }

  /** A sequence of pieces without an empty first piece and then without an
      empty last piece; the pieces kept are a run of the given ones. */
  function DropEmptyEnds(ps: seq<string>): (r: seq<string>)
    requires |ps| >= 1
    ensures forall i :: 0 <= i < |r| ==> r[i] in ps
    ensures Flatten(r) == Flatten(ps)
  {
    var lead := if ps[0] == [] then ps[1..] else ps;
    assert Flatten(lead) == Flatten(ps);
    if |lead| > 0 && lead[|lead| - 1] == [] then
      var n := |lead| - 1;
      assert lead == lead[..n] + [lead[n]];
      FlattenSnoc(lead[..n], lead[n]);
      lead[..n]
    else lead
  }

  /** The pieces put back together with a '(' between neighbours. */
  function JoinPieces(ps: seq<string>): string {
    if ps == [] then ""
    else if |ps| == 1 then ps[0]
    else ps[0] + "(" + JoinPieces(ps[1..])
  }

  /** Cutting at every '(' loses nothing: joining the pieces with '(' gives
      the text back. As no piece holds a '(', this fixes every cut. */
  lemma {:induction false} PiecesJoin(s: string)
    ensures JoinPieces(Pieces(s)) == s
    decreases |s|
  {
    if '(' in s {
      var k := IndexOf(s, '(');
      var a, b := s[..k], s[k + 1..];
      assert Pieces(s) == [a] + Pieces(b);
      PiecesJoin(b);
      JoinCons(a, Pieces(b));
      assert s == a + "(" + b;
    }
  }

  lemma JoinCons(a: string, ps: seq<string>)
    requires ps != []
    ensures JoinPieces([a] + ps) == a + "(" + JoinPieces(ps)
  {
    assert ([a] + ps)[1..] == ps;
  }

  /** The first piece is empty exactly when the text is empty or starts
      with '('. */
  lemma PiecesFirst(s: string)
    ensures Pieces(s)[0] == [] <==> s == [] || s[0] == '('
    ensures '(' in s ==> |Pieces(s)| >= 2
  {
    if '(' in s {
      IndexOfBefore(s, '(');
    }
  }

  /** The last piece is empty exactly when the text is empty or ends
      with '('. */
  lemma {:induction false} PiecesLast(s: string)
    ensures var ps := Pieces(s); ps[|ps| - 1] == [] <==> s == [] || s[|s| - 1] == '('
    decreases |s|
  {
    if '(' in s {
      var k := IndexOf(s, '(');
      IndexOfBefore(s, '(');
      var b := s[k + 1..];
      PiecesLast(b);
      var ps := Pieces(s);
      assert ps[1..] == Pieces(b);
      assert ps[|ps| - 1] == Pieces(b)[|Pieces(b)| - 1];
      if b != [] {
        assert s[|s| - 1] == b[|b| - 1];
      }
    }
  }

  /** The Scanner's tokens are the pieces between the first and the last,
      less the piece before a leading '(' and the one after a trailing '(';
      an empty text has none. */
  lemma TokensSlice(s: string)
    ensures s == [] ==> Tokens(s) == []
    ensures s != [] ==>
      var ps := Pieces(s);
      var lo := if s[0] == '(' then 1 else 0;
      var hi := if s[|s| - 1] == '(' then |ps| - 1 else |ps|;
      lo <= hi && Tokens(s) == ps[lo..hi]
  {
    PiecesFirst(s);
    PiecesLast(s);
    if s == [] {
      assert Pieces(s) == [""];
    } else {
      DropEmptyEndsSlice(Pieces(s));
    }
  }

  /** Dropping the empty ends keeps the pieces between them, in order. */
  lemma DropEmptyEndsSlice(ps: seq<string>)
    requires |ps| >= 1 && (ps[0] == [] ==> |ps| >= 2)
    ensures var lo := if ps[0] == [] then 1 else 0;
      var hi := if ps[|ps| - 1] == [] then |ps| - 1 else |ps|;
      lo <= hi && DropEmptyEnds(ps) == ps[lo..hi]
  {
    var lead := if ps[0] == [] then ps[1..] else ps;
    assert lead[|lead| - 1] == ps[|ps| - 1];
  }

  /** The pieces together hold every character of `s` but '(', in order. */
  lemma {:induction false} PiecesContent(s: string)
    ensures Flatten(Pieces(s)) == RemoveChar(s, '(')
    decreases |s|
  {
    if '(' in s {
      var k := IndexOf(s, '(');
      IndexOfBefore(s, '(');
      var a, b := s[..k], s[k + 1..];
      assert s == a + ("(" + b);
      assert '(' !in a;
      RemoveCharAppend(a, "(" + b, '(');
      RemoveCharAbsent(a, '(');
      assert ("(" + b)[1..] == b;
      PiecesContent(b);
      var ps := Pieces(s);
      assert ps == [a] + Pieces(b);
      assert ps[1..] == Pieces(b);
    } else {
      RemoveCharAbsent(s, '(');
      assert Flatten([s]) == s + Flatten([]);
    }
  }

  /** `s.replace(x, "")` for a one-character `x`. */
  function RemoveChar(s: string, x: char): (r: string)
    ensures x !in r
    ensures |r| <= |s|
  {
    if s == [] then []
    else if s[0] == x then RemoveChar(s[1..], x)
    else [s[0]] + RemoveChar(s[1..], x)
  }

  /** Java's `trim`: drops characters at or below U+0020 at both ends. */
  function TrimStart(s: string): (r: string)
    ensures |r| <= |s| && r == s[|s| - |r|..]
    ensures forall i :: 0 <= i < |s| - |r| ==> s[i] <= ' '
    ensures |r| > 0 ==> r[0] > ' '
  {
    if |s| > 0 && s[0] <= ' ' then TrimStart(s[1..]) else s
  }

  function TrimEnd(s: string): (r: string)
    ensures |r| <= |s| && r == s[..|r|]
    ensures forall i :: |r| <= i < |s| ==> s[i] <= ' '
    ensures |r| > 0 ==> r[|r| - 1] > ' '
  {
    if |s| > 0 && s[|s| - 1] <= ' ' then TrimEnd(s[..|s| - 1]) else s
  }

  function Trim(s: string): string {
    TrimEnd(TrimStart(s))
  }

  /** Every character above U+0020 survives trimming. */
  lemma TrimKeeps(s: string, c: char)
    requires c in s && c > ' '
    ensures c in Trim(s)
  {
    var i :| 0 <= i < |s| && s[i] == c;
    var j := TrimStartKeeps(s, i);
    TrimEndKeeps(TrimStart(s), j);
  }

  /** A character above U+0020 survives `TrimStart`, at the returned index. */
  lemma TrimStartKeeps(s: string, i: int) returns (j: int)
    requires 0 <= i < |s| && s[i] > ' '
    ensures 0 <= j < |TrimStart(s)| && TrimStart(s)[j] == s[i]
  {
    var t := TrimStart(s);
    j := i - (|s| - |t|);
    assert s[|s| - |t|..][j] == s[i];
  }

  /** A character above U+0020 survives `TrimEnd`, at the same index. */
  lemma TrimEndKeeps(t: string, j: int)
    requires 0 <= j < |t| && t[j] > ' '
    ensures j < |TrimEnd(t)| && TrimEnd(t)[j] == t[j]
  {
    var u := TrimEnd(t);
    assert t[..|u|] == u;
  }

  /** One token with its parentheses removed and its ends trimmed: it
      holds no parenthesis and begins and ends above U+0020. */
  function CycleOf(token: string): (c: string)
    ensures '(' !in c && ')' !in c
    ensures |c| > 0 ==> c[0] > ' ' && c[|c| - 1] > ' '
  {
    var inner := RemoveChar(token, '(');
    RemoveCharHas(inner, ')', '(');
    var stripped := RemoveChar(inner, ')');
    TrimAbsent(stripped);
    Trim(stripped)
  }

  /** Decoding a token trims the token with its parentheses removed: the
      result is a contiguous run of it, and every character cut from
      either end is at or below U+0020. */
  lemma CycleOfSlice(token: string) returns (lo: int, hi: int)
    ensures var st := RemoveChar(RemoveChar(token, '('), ')');
      && 0 <= lo <= hi <= |st| && CycleOf(token) == st[lo..hi]
      && (forall i :: 0 <= i < lo ==> st[i] <= ' ')
      && (forall i :: hi <= i < |st| ==> st[i] <= ' ')
  {
    var st := RemoveChar(RemoveChar(token, '('), ')');
    assert CycleOf(token) == Trim(st);
    lo, hi := TrimSlice(st);
  }

  /** `trim` keeps a contiguous run and cuts only blanks from either end. */
  lemma TrimSlice(st: string) returns (lo: int, hi: int)
    ensures 0 <= lo <= hi <= |st| && Trim(st) == st[lo..hi]
    ensures forall i :: 0 <= i < lo ==> st[i] <= ' '
    ensures forall i :: hi <= i < |st| ==> st[i] <= ' '
  {
    var t := TrimStart(st);
    var u := TrimEnd(t);
    lo, hi := |st| - |t|, |st| - |t| + |u|;
    assert t == st[lo..] && u == t[..|u|];
    forall i | hi <= i < |st|
      ensures st[i] <= ' '
    {
      assert st[i] == t[i - lo];
    }
  }

  /** Trimming adds no parenthesis. */
  lemma TrimAbsent(s: string)
    requires '(' !in s && ')' !in s
    ensures '(' !in Trim(s) && ')' !in Trim(s)
  {
    var t := TrimStart(s);
    SliceAbsent(s, |s| - |t|, |s|);
    SliceAbsent(t, 0, |TrimEnd(t)|);
  }

  /** A slice holds no parenthesis its sequence does not hold. */
  lemma SliceAbsent(s: string, lo: int, hi: int)
    requires 0 <= lo <= hi <= |s|
    requires '(' !in s && ')' !in s
    ensures '(' !in s[lo..hi] && ')' !in s[lo..hi]
  {
    assert forall i :: 0 <= i < hi - lo ==> s[lo..hi][i] == s[lo + i];
  }

  /** Decoding a token keeps each of its characters above U+0020 other
      than the parentheses. */
  lemma CycleOfKeeps(token: string, x: char)
    requires x in token && x > ' ' && x != '(' && x != ')'
    ensures x in CycleOf(token)
  {
    RemoveCharHas(token, '(', x);
    RemoveCharHas(RemoveChar(token, '('), ')', x);
    TrimKeeps(RemoveChar(RemoveChar(token, '('), ')'), x);
  }

  /** One singleton cycle for each letter of `letters`, in order, that the
      alphabet contains and the cycle notation never mentions. */
  function MissingLetters(letters: string, alphabet: Alphabet, spec: string): (r: seq<string>)
    ensures forall i :: 0 <= i < |r| ==>
      |r[i]| == 1 && r[i][0] in letters && alphabet.Contains(r[i][0]) && r[i][0] !in spec
  {
    if letters == [] then []
    else
      (if alphabet.Contains(letters[0]) && letters[0] !in spec then [[letters[0]]] else [])
      + MissingLetters(letters[1..], alphabet, spec)
  }

  /** Every letter of `letters` that the alphabet contains and the cycle
      notation never mentions gets its singleton cycle. */
  lemma {:induction false} MissingLettersComplete(letters: string, alphabet: Alphabet, spec: string, c: char)
    requires c in letters && alphabet.Contains(c) && c !in spec
    ensures [c] in MissingLetters(letters, alphabet, spec)
  {
    if letters[0] != c {
      MissingLettersComplete(letters[1..], alphabet, spec, c);
    }
  }

  /** The decoded tokens, in order. */
  function CyclesOf(ts: seq<string>): (cs: seq<string>)
    ensures |cs| == |ts|
    ensures forall i :: 0 <= i < |ts| ==> cs[i] == CycleOf(ts[i])
  {
    if ts == [] then [] else [CycleOf(ts[0])] + CyclesOf(ts[1..])
  }

  /** The cycles a permutation built from `spec` stores: the decoded tokens
      in order, then the implicit singletons of the letters A to Z. */
  function ListOfCycles(spec: string, alphabet: Alphabet): (cs: seq<string>)
    ensures |cs| == |Tokens(spec)| + |MissingLetters(Letters, alphabet, spec)|
    ensures forall i :: 0 <= i < |Tokens(spec)| ==> cs[i] == CycleOf(Tokens(spec)[i])
    ensures cs[|Tokens(spec)|..] == MissingLetters(Letters, alphabet, spec)
  {
    var ts := Tokens(spec);
    var ms := MissingLetters(Letters, alphabet, spec);
    var cs := CyclesOf(ts) + ms;
    assert cs[|ts|..] == ms;
    cs
  }

  /** Every stored cycle is free of parentheses; those after the decoded
      tokens are the singletons of letters the alphabet has and the
      notation does not write. */
  lemma ListOfCyclesShape(spec: string, alphabet: Alphabet)
    ensures var cs := ListOfCycles(spec, alphabet);
      forall i :: 0 <= i < |cs| ==> '(' !in cs[i] && ')' !in cs[i]
    ensures var cs := ListOfCycles(spec, alphabet);
      forall i :: |Tokens(spec)| <= i < |cs| ==>
        |cs[i]| == 1 && cs[i][0] in Letters && alphabet.Contains(cs[i][0]) && cs[i][0] !in spec
  {
    var cs := ListOfCycles(spec, alphabet);
    var ts := Tokens(spec);
    var ms := MissingLetters(Letters, alphabet, spec);
    forall i | 0 <= i < |cs|
      ensures '(' !in cs[i] && ')' !in cs[i]
    {
      if i < |ts| {
        assert cs[i] == CycleOf(ts[i]);
      } else {
        var m := ms[i - |ts|];
        assert cs[i] == m;
        LetterPlain(m[0]);
        assert m == [m[0]];
      }
    }
  }

  /** A letter is neither a parenthesis nor a blank. */
  lemma LetterPlain(c: char)
    requires c in Letters
    ensures c != '(' && c != ')' && c > ' '
  {
    LetterCapital(c);
  }

  /** No letter of the alphabet is left out: each one that the notation
      writes lands in a decoded cycle, and each one it does not write gets
      a singleton cycle of its own. */
  lemma EveryLetterListed(spec: string, alphabet: Alphabet, c: char)
    requires c in Letters && alphabet.Contains(c)
    ensures exists k :: 0 <= k < |ListOfCycles(spec, alphabet)| && c in ListOfCycles(spec, alphabet)[k]
  {
    var k;
    if c in spec {
      k := WrittenListed(spec, alphabet, c);
    } else {
      k := UnwrittenListed(spec, alphabet, c);
    }
  }

  /** A letter the notation writes lands in the cycle of its token. */
  lemma WrittenListed(spec: string, alphabet: Alphabet, c: char) returns (k: int)
    requires c in Letters && c in spec
    ensures 0 <= k < |Tokens(spec)| && c in ListOfCycles(spec, alphabet)[k]
  {
    LetterPlain(c);
    var ts := Tokens(spec);
    RemoveCharHas(spec, '(', c);
    FlattenHas(ts, c);
    k :| 0 <= k < |ts| && c in ts[k];
    CycleOfKeeps(ts[k], c);
  }

  /** A letter of the alphabet the notation never writes has a singleton
      cycle of its own after the tokens. */
  lemma UnwrittenListed(spec: string, alphabet: Alphabet, c: char) returns (k: int)
    requires c in Letters && alphabet.Contains(c) && c !in spec
    ensures 0 <= k < |ListOfCycles(spec, alphabet)| && ListOfCycles(spec, alphabet)[k] == [c]
  {
    var ms := MissingLetters(Letters, alphabet, spec);
    MissingLettersComplete(Letters, alphabet, spec, c);
    var j :| 0 <= j < |ms| && ms[j] == [c];
    var cs := ListOfCycles(spec, alphabet);
    k := |Tokens(spec)| + j;
    assert cs[|Tokens(spec)|..][j] == cs[k];
  }

  /** Cycle notation for a list of cycles, groups separated by one space. */
  function Format(cs: seq<string>): string {
    if cs == [] then ""
    else "(" + cs[0] + ")" + (if |cs| == 1 then "" else " " + Format(cs[1..]))
  }

  /** A cycle that cycle notation can carry: non-empty, no parentheses and
      no blank or control character at either end. */
  predicate Writable(c: string) {
    |c| > 0 && '(' !in c && ')' !in c && c[0] > ' ' && c[|c| - 1] > ' '
  }

  /** Characters at or below U+0020 only, all of which `trim` drops. */
  predicate Blank(g: string) {
    forall i :: 0 <= i < |g| ==> g[i] <= ' '
  }

  /** Cycle notation with the blank run `gaps[i]` after group `i`. */
  function Spaced(cs: seq<string>, gaps: seq<string>): string
    requires |gaps| == |cs|
  {
    if cs == [] then "" else "(" + Body(cs, gaps)
  }

  /** A non-empty spaced list after its first '(': each cycle, its ')'
      and its gap, with a '(' before every group but the first. */
  function Body(cs: seq<string>, gaps: seq<string>): string
    requires |gaps| == |cs| > 0
  {
    cs[0] + ")" + gaps[0] + (if |cs| == 1 then "" else "(" + Body(cs[1..], gaps[1..]))
  }

  /** The gaps `Format` writes: one blank between groups, none after the
      last. */
  function FormatGaps(n: nat): (gs: seq<string>)
    ensures |gs| == n
  {
    if n == 0 then [] else if n == 1 then [""] else [" "] + FormatGaps(n - 1)
  }

  /** Each gap `Format` writes is blank. */
  lemma {:induction false} FormatGapsBlank(n: nat, i: int)
    requires 0 <= i < n
    ensures Blank(FormatGaps(n)[i])
  {
    if i > 0 {
      FormatGapsBlank(n - 1, i - 1);
    }
  }

  /** `Format` is cycle notation with single blanks between groups. */
  lemma {:induction false} FormatSpaced(cs: seq<string>)
    ensures Format(cs) == Spaced(cs, FormatGaps(|cs|))
  {
    if |cs| == 1 {
      assert Body(cs, FormatGaps(1)) == cs[0] + ")" + "" + "";
    } else if |cs| > 1 {
      var gs := FormatGaps(|cs|);
      var b := Body(cs[1..], gs[1..]);
      var tail := " " + ("(" + b);
      assert Format(cs) == "(" + (cs[0] + ")") + tail by {
        assert gs[1..] == FormatGaps(|cs| - 1);
        FormatSpaced(cs[1..]);
      }
      assert Spaced(cs, gs) == "(" + ((cs[0] + ")") + tail) by {
        assert gs[0] == " ";
        Regroup(cs[0] + ")", " ", "(" + b);
      }
      Regroup("(", cs[0] + ")", tail);
    }
  }

  /** Concatenation regroups. */
  lemma Regroup(a: string, b: string, c: string)
    ensures a + b + c == a + (b + c)
  {
  }

  /** The tokens of a non-empty spaced list, after the leading '(': each
      cycle with its ')' and its gap. */
  function Groups(cs: seq<string>, gaps: seq<string>): (gs: seq<string>)
    requires |gaps| == |cs|
    ensures |gs| == |cs|
  {
    if cs == [] then [] else [cs[0] + ")" + gaps[0]] + Groups(cs[1..], gaps[1..])
  }

  /** Group `i` is cycle `i`, its ')' and gap `i`. */
  lemma {:induction false} GroupsAt(cs: seq<string>, gaps: seq<string>, i: int)
    requires |gaps| == |cs| && 0 <= i < |cs|
    ensures Groups(cs, gaps)[i] == cs[i] + ")" + gaps[i]
  {
    if i > 0 {
      GroupsAt(cs[1..], gaps[1..], i - 1);
    }
  }

  lemma PiecesSplit(a: string, b: string)
    requires '(' !in a
    ensures Pieces(a + "(" + b) == [a] + Pieces(b)
  {
    var s := a + "(" + b;
    assert s[|a|] == '(';
    assert forall j :: 0 <= j < |a| ==> s[j] == a[j];
    var k := IndexOf(s, '(');
    IndexOfBefore(s, '(');
    assert k == |a|;
    assert s[..k] == a;
    assert s[k + 1..] == b;
  }

  lemma {:induction false} RemoveCharAppend(a: string, b: string, x: char)
    ensures RemoveChar(a + b, x) == RemoveChar(a, x) + RemoveChar(b, x)
  {
    if a != [] {
      assert (a + b)[0] == a[0];
      assert (a + b)[1..] == a[1..] + b;
      RemoveCharAppend(a[1..], b, x);
      if a[0] != x {
        var ra, rb := RemoveChar(a[1..], x), RemoveChar(b, x);
        assert [a[0]] + (ra + rb) == ([a[0]] + ra) + rb;
      }
    } else {
      assert a + b == b;
    }
  }

  /** Removing `x` keeps exactly the other characters. */
  lemma {:induction false} RemoveCharHas(s: string, x: char, c: char)
    ensures c in RemoveChar(s, x) <==> c in s && c != x
  {
    if s != [] {
      RemoveCharHas(s[1..], x, c);
      assert s == [s[0]] + s[1..];
    }
  }

  lemma RemoveCharAbsent(a: string, x: char)
    requires x !in a
    ensures RemoveChar(a, x) == a
  {
  }

  /** Trimming the end of a cycle followed by blanks gives the cycle. */
  lemma TrimEndBlanks(c: string, g: string)
    requires |c| > 0 && c[|c| - 1] > ' ' && Blank(g)
    ensures TrimEnd(c + g) == c
  {
    var s := c + g;
    var r := TrimEnd(s);
    assert s[|c| - 1] == c[|c| - 1];
    assert |r| >= |c|;
    assert s[..|c|] == c;
  }

  /** Removing parentheses from a written cycle followed by `tail` leaves
      the cycle followed by what `tail` holds besides ')'. */
  lemma StripParens(c: string, tail: string)
    requires Writable(c) && '(' !in tail
    ensures RemoveChar(RemoveChar(c + tail, '('), ')') == c + RemoveChar(tail, ')')
  {
    RemoveCharAbsent(c + tail, '(');
    RemoveCharAppend(c, tail, ')');
    RemoveCharAbsent(c, ')');
  }

  /** Decoding a group written as "c)" and a blank run gives back `c`. */
  lemma CycleOfGroup(c: string, g: string)
    requires Writable(c) && Blank(g)
    ensures CycleOf(c + ")" + g) == c
  {
    assert '(' !in ")" + g && ')' !in g;
    assert c + ")" + g == c + (")" + g);
    StripParens(c, ")" + g);
    assert RemoveChar(")" + g, ')') == RemoveChar(g, ')');
    RemoveCharAbsent(g, ')');
    assert TrimStart(c + g) == c + g by {
      assert (c + g)[0] == c[0];
    }
    TrimEndBlanks(c, g);
  }

  lemma CyclesOfGroups(cs: seq<string>, gaps: seq<string>)
    requires |gaps| == |cs|
    requires forall i :: 0 <= i < |cs| ==> Writable(cs[i]) && Blank(gaps[i])
    ensures CyclesOf(Groups(cs, gaps)) == cs
  {
    var ds := CyclesOf(Groups(cs, gaps));
    forall i | 0 <= i < |cs|
      ensures ds[i] == cs[i]
    {
      GroupsAt(cs, gaps, i);
      CycleOfGroup(cs[i], gaps[i]);
    }
  }

  /** A written group holds no '('. */
  lemma GroupClean(c: string, g: string)
    requires Writable(c) && Blank(g)
    ensures '(' !in c + ")" + g
  {
    var group := c + ")" + g;
    forall i | 0 <= i < |group|
      ensures group[i] != '('
    {
      if i > |c| {
        assert group[i] == g[i - |c| - 1];
      }
    }
  }

  /** The pieces of a non-empty spaced list: the empty text before the
      first '(' and then one group per cycle. */
  lemma PiecesSpaced(cs: seq<string>, gaps: seq<string>)
    requires |gaps| == |cs| > 0
    requires forall i :: 0 <= i < |cs| ==> Writable(cs[i]) && Blank(gaps[i])
    ensures Pieces(Spaced(cs, gaps)) == [""] + Groups(cs, gaps)
  {
    PiecesSplit("", Body(cs, gaps));
    assert "" + "(" + Body(cs, gaps) == Spaced(cs, gaps);
    PiecesBody(cs, gaps);
  }

  /** The pieces of a body: one group per cycle. */
  lemma {:induction false} PiecesBody(cs: seq<string>, gaps: seq<string>)
    requires |gaps| == |cs| > 0
    requires forall i :: 0 <= i < |cs| ==> Writable(cs[i]) && Blank(gaps[i])
    ensures Pieces(Body(cs, gaps)) == Groups(cs, gaps)
  {
    var group := cs[0] + ")" + gaps[0];
    GroupClean(cs[0], gaps[0]);
    if |cs| == 1 {
      assert Body(cs, gaps) == group;
    } else {
      var more := Body(cs[1..], gaps[1..]);
      assert Body(cs, gaps) == group + "(" + more;
      PiecesSplit(group, more);
      PiecesBody(cs[1..], gaps[1..]);
    }
  }

  /** Round trip: decoding well-formed cycle notation, with any run of
      blanks after each group, returns exactly the cycles written, in
      order, followed by the implicit singletons. */
  lemma ParseSpaced(cs: seq<string>, gaps: seq<string>, alphabet: Alphabet)
    requires |gaps| == |cs|
    requires forall i :: 0 <= i < |cs| ==> Writable(cs[i]) && Blank(gaps[i])
    ensures ListOfCycles(Spaced(cs, gaps), alphabet) == cs + MissingLetters(Letters, alphabet, Spaced(cs, gaps))
  {
    if cs == [] {
      assert Pieces("") == [""];
      assert Tokens("") == [];
    } else {
      var spec := Spaced(cs, gaps);
      var gs := Groups(cs, gaps);
      assert Tokens(spec) == gs by {
        PiecesSpaced(cs, gaps);
        GroupsAt(cs, gaps, |cs| - 1);
        assert gs[|gs| - 1] != [];
        DropEmptyEndsSlice([""] + gs);
        assert ([""] + gs)[1..] == gs;
      }
      CyclesOfGroups(cs, gaps);
    }
  }

  /** Round trip for the single-blank form `Format` prints. */
  lemma ParseFormat(cs: seq<string>, alphabet: Alphabet)
    requires forall i :: 0 <= i < |cs| ==> Writable(cs[i])
    ensures ListOfCycles(Format(cs), alphabet) == cs + MissingLetters(Letters, alphabet, Format(cs))
  {
    var gaps := FormatGaps(|cs|);
    forall i | 0 <= i < |cs|
      ensures Blank(gaps[i])
    {
      FormatGapsBlank(|cs|, i);
    }
    FormatSpaced(cs);
    ParseSpaced(cs, gaps, alphabet);
  }
}

=== FILE: driver.dfy ===
/** The two pieces of Main.java that compute rather than read or write:
    the layout of an output line (`printMessageLine`) and the bounds of
    the alphabet named by the first configuration token (`readConfig`). */
module Driver {
  import opened Text
  import opened Alphabets

  /** What the loop of `printMessageLine` prints from position `i` of the
      prepared text `h`: a group of five followed by a space while more
      than five symbols remain, and otherwise the rest and a line end. */
  function Emit(h: string, i: nat): (out: string)
    decreases |h| - i
  {
    if i >= |h| then []
    else if |h| - i > 5 then h[i..i + 5] + [' '] + Emit(h, i + 5)
    else h[i..] + ['\n']
  }

  /** `printMessageLine(msg)`: whitespace removed, upper-cased, and laid out
      in groups of five. */
  function PrintMessageLine(msg: string): (out: string)
    ensures var h := Upper(RemoveWhitespace(msg));
      |out| == |h| + (|h| + 4) / 5
  {
    var h := Upper(RemoveWhitespace(msg));
    EmitLength(h, 0);
    Emit(h, 0)
  }

  /** The loop of lines 263-273, appending what each turn prints. */
  method PrintMessageLoop(msg: string) returns (out: string)
    ensures out == PrintMessageLine(msg)
  {
    var helper := Upper(RemoveWhitespace(msg));
    out := [];
    var i := 0;
    while i < |helper|
      invariant 0 <= i
      invariant out + Emit(helper, i) == Emit(helper, 0)
      decreases |helper| - i
    {
      var limit := |helper| - i;
      if limit > 5 {
        out := out + (helper[i..i + 5] + [' ']);
      } else {
        out := out + (helper[i..i + limit] + ['\n']);
        assert helper[i..i + limit] == helper[i..];
      }
      i := i + 5;
    }
  }

  /** From a group boundary `5 * k`, the output is what is printed from
      group `k` on. */
  lemma {:induction false} EmitSuffix(h: string, k: nat)
    requires 5 * k < |h|
    ensures 6 * k <= |Emit(h, 0)| && Emit(h, 0)[6 * k..] == Emit(h, 5 * k)
    decreases k
  {
    if k > 0 {
      EmitSuffix(h, k - 1);
      var i := 5 * (k - 1);
      var rest := Emit(h, i);
      assert rest == h[i..i + 5] + [' '] + Emit(h, i + 5);
      assert rest[6..] == Emit(h, 5 * k);
    }
  }

  /** Group `k` of the output: the symbols `5 * k` onwards, five of them or
      fewer for the last group, followed by a space, or by a line end after
      the last group. */
  lemma PrintGroup(h: string, k: nat)
    requires 5 * k < |h|
    ensures var len := if |h| - 5 * k > 5 then 5 else |h| - 5 * k;
      var out := Emit(h, 0);
      && 1 <= len <= 5
      && 6 * k + len < |out|
      && out[6 * k..6 * k + len] == h[5 * k..5 * k + len]
      && out[6 * k + len] == if |h| - 5 * k > 5 then ' ' else '\n'
  {
    EmitSuffix(h, k);
    var out := Emit(h, 0);
    var len := if |h| - 5 * k > 5 then 5 else |h| - 5 * k;
    assert out[6 * k..][..len] == out[6 * k..6 * k + len];
  }

  /** Each group of up to five symbols brings one separator: the output
      is the text's length plus the number of groups long. */
  lemma {:induction false} EmitLength(h: string, i: nat)
    requires i <= |h|
    ensures |Emit(h, i)| == (|h| - i) + (|h| - i + 4) / 5
    decreases |h| - i
  {
    if |h| - i > 5 {
      EmitLength(h, i + 5);
    }
  }

  /** Dropping the separators from the output gives back the text, when
      the text has no whitespace of its own. */
  lemma {:induction false} EmitContent(h: string, i: nat)
    requires i <= |h|
    requires forall j :: 0 <= j < |h| ==> !IsWhitespace(h[j])
    ensures RemoveWhitespace(Emit(h, i)) == h[i..]
    decreases |h| - i
  {
    if i < |h| && |h| - i > 5 {
      EmitContent(h, i + 5);
      DropSeparator(h[i..i + 5], ' ', Emit(h, i + 5));
      assert Emit(h, i) == h[i..i + 5] + [' '] + Emit(h, i + 5);
      assert h[i..] == h[i..i + 5] + h[i + 5..];
    } else if i < |h| {
      DropSeparator(h[i..], '\n', []);
      assert Emit(h, i) == h[i..] + ['\n'] + [];
    }
  }

  /** A whitespace-free group, a separator and the rest lose just the
      separator and the rest's whitespace. */
  lemma DropSeparator(g: string, sep: char, rest: string)
    requires forall j :: 0 <= j < |g| ==> !IsWhitespace(g[j])
    requires IsWhitespace(sep)
    ensures RemoveWhitespace(g + [sep] + rest) == g + RemoveWhitespace(rest)
  {
    RemoveWhitespaceKeeps(g);
    assert g + [sep] + rest == g + ([sep] + rest);
    RemoveWhitespaceAppend(g, [sep] + rest);
    assert ([sep] + rest)[1..] == rest;
  }

  /** Upper-casing keeps a whitespace-free text whitespace-free. */
  lemma UpperNoWhitespace(s: string)
    requires forall j :: 0 <= j < |s| ==> !IsWhitespace(s[j])
    ensures forall j :: 0 <= j < |Upper(s)| ==> !IsWhitespace(Upper(s)[j])
  {
  }

  /** The printed line, with its separators dropped, is the message
      without whitespace and in upper case. */
  lemma PrintMessageContent(msg: string)
    ensures RemoveWhitespace(PrintMessageLine(msg)) == Upper(RemoveWhitespace(msg))
  {
    var h := Upper(RemoveWhitespace(msg));
    UpperNoWhitespace(RemoveWhitespace(msg));
    EmitContent(h, 0);
    assert h[0..] == h;
  }

  /** A message of whitespace only prints nothing, not even a line end;
      any other message prints one line. */
  lemma PrintMessageEmpty(msg: string)
    ensures RemoveWhitespace(msg) == [] <==> PrintMessageLine(msg) == []
    ensures RemoveWhitespace(msg) != [] ==>
      PrintMessageLine(msg)[|PrintMessageLine(msg)| - 1] == '\n'
  {
    var h := Upper(RemoveWhitespace(msg));
    if h != [] {
      var k := (|h| - 1) / 5;
      PrintGroup(h, k);
      EmitLength(h, 0);
    }
  }

  /** Whether a token has the form `[A-Z]-[A-Z]`. */
  predicate IsRangeToken(t: string) {
    |t| == 3 && 'A' <= t[0] <= 'Z' && t[1] == '-' && 'A' <= t[2] <= 'Z'
  }

  /** The first and last symbol of the alphabet named by token `t`
      (lines 132-161): the two letters of a range token, and otherwise the
      smallest and the largest symbol of the token. */
  method AlphabetBounds(t: string) returns (first: char, last: char)
    requires |t| >= 1
    ensures IsRangeToken(t) ==> first == t[0] && last == t[2]
    ensures !IsRangeToken(t) ==> first in t && last in t
    ensures !IsRangeToken(t) ==> forall j :: 0 <= j < |t| ==> first <= t[j] <= last
  {
    if IsRangeToken(t) {
      first, last := t[0], t[2];
      return;
    }
    var greatestIndex: int := 0;
    var i := 0;
    while i < |t|
      invariant 0 <= i <= |t|
      invariant i == 0 ==> greatestIndex == 0
      invariant i > 0 ==> exists j :: 0 <= j < i && t[j] as int == greatestIndex
      invariant forall j :: 0 <= j < i ==> t[j] as int <= greatestIndex
    {
      var current := t[i] as int;
      if current > greatestIndex {
        greatestIndex := current;
      }
      i := i + 1;
    }
    var smallestChar := t[0];
    i := 1;
    while i < |t|
      invariant 1 <= i <= |t|
      invariant smallestChar in t[..i]
      invariant forall j :: 0 <= j < i ==> smallestChar <= t[j]
    {
      if t[i] < smallestChar {
        smallestChar := t[i];
      }
      i := i + 1;
    }
    var w :| 0 <= w < |t| && t[w] as int == greatestIndex;
    first, last := smallestChar, t[w];
  }

  /** The alphabet made from the bounds of a token that is not a range
      holds every symbol of the token. */
  lemma BoundsCover(t: string, first: char, last: char)
    requires !IsRangeToken(t) && first in t && last in t
    requires forall j :: 0 <= j < |t| ==> first <= t[j] <= last
    requires last as int < 0xD800 || 0xDFFF < first as int
    ensures forall j :: 0 <= j < |t| ==> Range(first, last).Contains(t[j])
  {
    forall j | 0 <= j < |t|
      ensures Range(first, last).Contains(t[j])
    {
      RangeIndex(first, last, t[j]);
    }
  }
}

=== FILE: machines.dfy ===
/** The machine's configuration (Machine.java): a catalog of rotors keyed by
    upper-cased name, the slots filled from it, the accumulated setting
    characters and the optional plugboard. A slot holds a catalog name, so
    a rotor inserted twice is one rotor seen from two slots, as the Java
    list of shared rotor objects is. */
module Machines {
  import opened Text
  import opened Options
  import opened Alphabets
  import opened Permutations
  import opened Rotors

  datatype Machine = Machine(
    alphabet: Alphabet,
    numRotors: int,
    numPawls: int,
    catalog: map<string, Rotor>,
    slots: seq<string>,
    settings: seq<char>,
    plugboard: Option<Permutation>)

  /** The catalog built by the constructor: each rotor under its upper-cased
      name, a later rotor replacing an earlier one of the same name. */
  function BuildCatalog(rs: seq<Rotor>): (c: map<string, Rotor>)
    ensures forall i :: 0 <= i < |rs| ==> Upper(rs[i].name) in c
    ensures forall n :: n in c ==> exists i :: 0 <= i < |rs| && Upper(rs[i].name) == n && c[n] == rs[i]
    decreases |rs|
  {
    if rs == [] then map[]
    else
      var init, last := rs[..|rs| - 1], rs[|rs| - 1];
      var c := BuildCatalog(init)[Upper(last.name) := last];
      assert forall i :: 0 <= i < |init| ==> rs[i] == init[i];
      c
  }

  /** The rotor under a name is the last one of the list with that name. */
  lemma {:induction false} CatalogLast(rs: seq<Rotor>, i: int)
    requires 0 <= i < |rs|
    requires forall j :: i < j < |rs| ==> Upper(rs[j].name) != Upper(rs[i].name)
    ensures BuildCatalog(rs)[Upper(rs[i].name)] == rs[i]
    decreases |rs|
  {
    if i < |rs| - 1 {
      var init := rs[..|rs| - 1];
      assert init[i] == rs[i];
      CatalogLast(init, i);
    }
  }

  /** `new Machine(alpha, numRotors, pawls, allRotors)`: nothing inserted,
      no settings, no plugboard. */
  function NewMachine(alpha: Alphabet, numRotors: int, pawls: int, allRotors: seq<Rotor>): (m: Machine)
    ensures m.alphabet == alpha && m.numRotors == numRotors && m.numPawls == pawls
    ensures m.catalog == BuildCatalog(allRotors)
    ensures m.slots == [] && m.settings == [] && m.plugboard == None
  {
    Machine(alpha, numRotors, pawls, BuildCatalog(allRotors), [], [], None)
  }

  /** `insertRotors(rotors)`: each name, upper-cased, that the catalog knows
      is appended to the slots; unknown names are passed over and the slots
      already there stay. */
  function InsertRotors(m: Machine, names: seq<string>): (m': Machine)
    ensures m' == m.(slots := m'.slots)
    ensures |m.slots| <= |m'.slots| <= |m.slots| + |names|
    ensures m'.slots[..|m.slots|] == m.slots
    ensures forall k :: |m.slots| <= k < |m'.slots| ==> m'.slots[k] in m.catalog
    decreases |names|
  {
    if names == [] then m
    else
      var key := Upper(names[0]);
      var m1 := if key in m.catalog then m.(slots := m.slots + [key]) else m;
      var m' := InsertRotors(m1, names[1..]);
      assert m'.slots[..|m.slots|] == m1.slots[..|m.slots|];
      m'
  }

  /** Inserting two lists one after the other is inserting their
      concatenation: the slots only ever grow. */
  lemma {:induction false} InsertRotorsAppend(m: Machine, a: seq<string>, b: seq<string>)
    ensures InsertRotors(m, a + b) == InsertRotors(InsertRotors(m, a), b)
    decreases |a|
  {
    if a == [] {
      assert a + b == b;
    } else {
      assert (a + b)[0] == a[0];
      var key := Upper(a[0]);
      var m1 := if key in m.catalog then m.(slots := m.slots + [key]) else m;
      assert (a + b)[1..] == a[1..] + b;
      InsertRotorsAppend(m1, a[1..], b);
    }
  }

  /** When the catalog knows every name, the slots gain exactly the
      upper-cased names, in order. */
  lemma {:induction false} InsertKnown(m: Machine, names: seq<string>)
    requires forall i :: 0 <= i < |names| ==> Upper(names[i]) in m.catalog
    ensures InsertRotors(m, names).slots == m.slots + seq(|names|, i requires 0 <= i < |names| => Upper(names[i]))
    decreases |names|
  {
    if names != [] {
      var m1 := m.(slots := m.slots + [Upper(names[0])]);
      InsertKnown(m1, names[1..]);
      var ups := seq(|names|, i requires 0 <= i < |names| => Upper(names[i]));
      var rest := seq(|names| - 1, i requires 0 <= i < |names| - 1 => Upper(names[1..][i]));
      assert ups == [Upper(names[0])] + rest;
    }
  }

  /** When the catalog knows none of the names, nothing changes. */
  lemma {:induction false} InsertUnknown(m: Machine, names: seq<string>)
    requires forall i :: 0 <= i < |names| ==> Upper(names[i]) !in m.catalog
    ensures InsertRotors(m, names) == m
    decreases |names|
  {
    if names != [] {
      InsertUnknown(m, names[1..]);
    }
  }

  /** The rotor in slot `k`. */
  function Slot(m: Machine, k: int): Rotor
    requires 0 <= k < |m.slots| && m.slots[k] in m.catalog
  {
    m.catalog[m.slots[k]]
  }

  /** Slots `1` to `nR - 1` can take the setting characters: each slot
      names a catalog rotor and each character is a symbol of its rotor's
      alphabet. */
  predicate Settable(c: map<string, Rotor>, slots: seq<string>, nR: int, chars: seq<char>) {
    && nR - 1 <= |chars|
    && nR <= |slots|
    && (forall k :: 0 <= k < nR ==> slots[k] in c)
    && (forall k :: 1 <= k < nR ==> c[slots[k]].perm.alphabet.Contains(chars[k - 1]))
  }

  /** A new position for one rotor keeps the slots settable. */
  lemma SettableKeep(c: map<string, Rotor>, slots: seq<string>, nR: int, chars: seq<char>, n: string, r: Rotor)
    requires Settable(c, slots, nR, chars)
    requires n in c && r.perm == c[n].perm
    ensures Settable(c[n := r], slots, nR, chars)
  {
    var c' := c[n := r];
    forall k | 1 <= k < nR
      ensures c'[slots[k]].perm.alphabet.Contains(chars[k - 1])
    {
      assert c'[slots[k]].perm == c[slots[k]].perm;
    }
  }

  /** Two catalogs hold the same rotors under the same names, positions
      aside. */
  predicate SameRotors(c: map<string, Rotor>, c': map<string, Rotor>) {
    c'.Keys == c.Keys && forall n :: n in c ==> c'[n] == c[n].(setting := c'[n].setting)
  }

  /** A new position for one rotor followed by position changes is still
      only a change of positions. */
  lemma SameRotorsAfter(c: map<string, Rotor>, n: string, r: Rotor, d: map<string, Rotor>)
    requires n in c && r == c[n].(setting := r.setting)
    requires SameRotors(c[n := r], d)
    ensures SameRotors(c, d)
  {
    forall n' | n' in c
      ensures d[n'] == c[n'].(setting := d[n'].setting)
    {
      assert n' in c[n := r];
    }
  }

  /** The loop of `setRotors` from slot `index` on: slot `index` takes the
      position of character `chars[index - 1]`. */
  function SetLoop(c: map<string, Rotor>, slots: seq<string>, nR: int, chars: seq<char>, index: int): (c': map<string, Rotor>)
    requires 1 <= index && Settable(c, slots, nR, chars)
    ensures c'.Keys == c.Keys
    decreases nR - index
  {
    if index >= nR then c
    else
      var n := slots[index];
      var r := SetChar(c[n], chars[index - 1]);
      SettableKeep(c, slots, nR, chars, n, r);
      SetLoop(c[n := r], slots, nR, chars, index + 1)
  }

  /** `setRotors(setting)`: the characters are appended to the stored
      settings, and slots `1` to `numRotors - 1` take their positions from
      the first `numRotors - 1` stored characters. The length check of the
      Java assertion is a precondition. */
  function SetRotors(m: Machine, s: string): (m': Machine)
    requires |s| == m.numRotors - 1
    requires Settable(m.catalog, m.slots, m.numRotors, m.settings + s)
    ensures m' == m.(settings := m.settings + s, catalog := m'.catalog)
    ensures SameRotors(m.catalog, m'.catalog)
  {
    var chars := m.settings + s;
    SetLoopSameRotors(m.catalog, m.slots, m.numRotors, chars, 1);
    m.(settings := chars, catalog := SetLoop(m.catalog, m.slots, m.numRotors, chars, 1))
  }

  /** Only the characters before `nR - 1` are read. */
  lemma {:induction false} SetLoopPrefix(c: map<string, Rotor>, slots: seq<string>, nR: int, a: seq<char>, b: seq<char>, index: int)
    requires 1 <= index && Settable(c, slots, nR, a) && Settable(c, slots, nR, b)
    requires forall k :: 0 <= k < nR - 1 ==> a[k] == b[k]
    ensures SetLoop(c, slots, nR, a, index) == SetLoop(c, slots, nR, b, index)
    decreases nR - index
  {
    if index < nR {
      var n := slots[index];
      var r := SetChar(c[n], a[index - 1]);
      assert a[index - 1] == b[index - 1];
      SettableKeep(c, slots, nR, a, n, r);
      SettableKeep(c, slots, nR, b, n, r);
      SetLoopPrefix(c[n := r], slots, nR, a, b, index + 1);
    }
  }

  /** Once the stored characters cover every slot, the characters a later
      `setRotors` passes make no difference: every call re-applies the
      first ones. */
  lemma SetRotorsIgnoresLater(m: Machine, s1: string, s2: string)
    requires |s1| == |s2| == m.numRotors - 1
    requires |m.settings| >= m.numRotors - 1
    requires Settable(m.catalog, m.slots, m.numRotors, m.settings)
    ensures SetRotors(m, s1).catalog == SetRotors(m, s2).catalog
  {
    var a, b := m.settings + s1, m.settings + s2;
    assert forall k :: 0 <= k < m.numRotors - 1 ==> a[k] == m.settings[k] == b[k];
    SetLoopPrefix(m.catalog, m.slots, m.numRotors, a, b, 1);
  }

  /** The loop changes only the positions of the rotors it meets. */
  lemma {:induction false} SetLoopSameRotors(c: map<string, Rotor>, slots: seq<string>, nR: int, chars: seq<char>, index: int)
    requires 1 <= index && Settable(c, slots, nR, chars)
    ensures SameRotors(c, SetLoop(c, slots, nR, chars, index))
    decreases nR - index
  {
    if index < nR {
      var n := slots[index];
      var r := SetChar(c[n], chars[index - 1]);
      SettableKeep(c, slots, nR, chars, n, r);
      SetLoopSameRotors(c[n := r], slots, nR, chars, index + 1);
      SameRotorsAfter(c, n, r, SetLoop(c[n := r], slots, nR, chars, index + 1));
    }
  }

  /** A name in none of the slots from `index` on keeps its rotor. */
  lemma {:induction false} SetLoopUntouched(c: map<string, Rotor>, slots: seq<string>, nR: int, chars: seq<char>, index: int, n: string)
    requires 1 <= index && Settable(c, slots, nR, chars)
    requires n in c && forall k :: index <= k < nR ==> slots[k] != n
    ensures SetLoop(c, slots, nR, chars, index)[n] == c[n]
    decreases nR - index
  {
    if index < nR {
      var n0 := slots[index];
      var r := SetChar(c[n0], chars[index - 1]);
      SettableKeep(c, slots, nR, chars, n0, r);
      SetLoopUntouched(c[n0 := r], slots, nR, chars, index + 1, n);
    }
  }

  /** Slots from `index` on with pairwise distinct names: the rotor of
      slot `k` ends at the position of character `chars[k - 1]`. */
  lemma {:induction false} SetLoopSets(c: map<string, Rotor>, slots: seq<string>, nR: int, chars: seq<char>, index: int, k: int)
    requires 1 <= index && Settable(c, slots, nR, chars)
    requires forall i, j :: index <= i < j < nR ==> slots[i] != slots[j]
    requires index <= k < nR
    ensures SetLoop(c, slots, nR, chars, index)[slots[k]] == SetChar(c[slots[k]], chars[k - 1])
    decreases nR - index
  {
    var n0 := slots[index];
    var r := SetChar(c[n0], chars[index - 1]);
    SettableKeep(c, slots, nR, chars, n0, r);
    if k == index {
      SetLoopUntouched(c[n0 := r], slots, nR, chars, index + 1, n0);
    } else {
      SetLoopSets(c[n0 := r], slots, nR, chars, index + 1, k);
    }
  }

  /** On slots with pairwise distinct names, `setRotors` puts the symbol
      `(settings + s)[k - 1]` at the position of slot `k`, for `k` from 1 to
      `numRotors - 1`, and leaves a slot-0 rotor that fills no other slot
      as it was. */
  lemma SetRotorsSlots(m: Machine, s: string, k: int)
    requires |s| == m.numRotors - 1
    requires Settable(m.catalog, m.slots, m.numRotors, m.settings + s)
    requires forall i, j :: 1 <= i < j < m.numRotors ==> m.slots[i] != m.slots[j]
    requires 0 <= k < m.numRotors
    ensures var r := SetRotors(m, s).catalog[m.slots[k]];
      k >= 1 ==> 0 <= r.setting < RotorSize(r) && r.perm.alphabet.ToChar(r.setting) == (m.settings + s)[k - 1]
    ensures (forall j :: 1 <= j < m.numRotors ==> m.slots[j] != m.slots[0]) ==>
      SetRotors(m, s).catalog[m.slots[0]] == m.catalog[m.slots[0]]
  {
    var chars := m.settings + s;
    if k >= 1 {
      SetLoopSets(m.catalog, m.slots, m.numRotors, chars, 1, k);
    }
    if forall j :: 1 <= j < m.numRotors ==> m.slots[j] != m.slots[0] {
      SetLoopUntouched(m.catalog, m.slots, m.numRotors, chars, 1, m.slots[0]);
    }
  }

  /** `setPlugboard(plugBoard)`: the plugboard is replaced, possibly by none;
      nothing else changes. */
  function SetPlugboard(m: Machine, plugboard: Option<Permutation>): (m': Machine)
    ensures m'.plugboard == plugboard
    ensures m' == m.(plugboard := m'.plugboard)
  {
    m.(plugboard := plugboard)
  }

  /** A catalog rotor the conversion can use: it works over the machine's
      non-empty alphabet, its cycles stay in that alphabet, and a moving
      rotor has its type tag and a position in range. */
  predicate RotorOk(a: Alphabet, r: Rotor) {
    r.perm.alphabet == a && a.Size() > 0 && InAlphabet(r.perm) && NotchReadable(r)
  }

  /** A machine `convert` can run on without an index going out of range:
      at least one pawl, the first `numRotors` slots filled, every rotor
      in a slot usable, and with a single pawl a non-moving rotor in slot 0 (the loop
      then reaches slot 0 and would advance a slot before it if slot 0
      were at a notch). */
  predicate Ready(m: Machine) {
    && 1 <= m.numPawls
    && 1 <= m.numRotors <= |m.slots|
    && m.alphabet.Size() > 0
    && (forall k :: 0 <= k < |m.slots| ==> m.slots[k] in m.catalog)
    && (forall k :: 0 <= k < |m.slots| ==> RotorOk(m.alphabet, Slot(m, k)))
    && (m.numPawls == 1 ==> !Rotates(Slot(m, 0)))
    && (m.plugboard.Some? ==> m.plugboard.value.alphabet == m.alphabet && InAlphabet(m.plugboard.value))
  }
}

=== FILE: messages.dfy ===
/** Converting whole messages (Machine.java:101-149): each symbol other
    than a space steps the rotors and then takes the signal path; a space
    is copied and leaves the rotors where they are. */
module Messages {
  import opened Text
  import opened Options
  import opened Alphabets
  import opened Permutations
  import opened Machines
  import opened Stepping
  import opened Signals

  /** `convert(int)`: the machine after stepping, and the converted index. */
  function Convert(m: Machine, c: int): (r: (Machine, int))
    requires Ready(m)
    ensures Ready(r.0) && 0 <= r.1 < m.alphabet.Size()
    ensures r.0 == m.(catalog := r.0.catalog) && SameRotors(m.catalog, r.0.catalog)
  {
    StepSame(m);
    var m' := Step(m);
    (m', Signal(m', c))
  }

  /** A converted message and the machine it leaves. */
  datatype Conversion = Conversion(machine: Machine, text: string)

  /** One turn of the loop of `convert(String)`: a space is copied and the
      rotors stay; any other symbol goes through `convert(int)`. A symbol
      outside the alphabet has no index, and the conversion fails. */
  function ConvertSymbol(m: Machine, c: char): (r: Option<Conversion>)
    requires Ready(m)
    ensures r.Some? ==> Ready(r.value.machine) && |r.value.text| == 1
    ensures r.Some? ==> r.value.machine == m.(catalog := r.value.machine.catalog)
    ensures r.None? <==> c != ' ' && !m.alphabet.Contains(c)
  {
    if c == ' ' then Some(Conversion(m, [' ']))
    else if !m.alphabet.Contains(c) then None
    else
      var r := Convert(m, m.alphabet.ToInt(c));
      Some(Conversion(r.0, [m.alphabet.ToChar(r.1)]))
  }

  /** `convert(String)`: a single symbol is one turn of the loop; a longer
      message is its front followed by its last symbol, converted from the
      machine the front leaves. */
  function ConvertMessage(m: Machine, msg: string): (r: Option<Conversion>)
    requires Ready(m)
    ensures r.Some? ==> Ready(r.value.machine) && |r.value.text| == |msg|
    ensures r.Some? ==> r.value.machine == m.(catalog := r.value.machine.catalog)
    decreases |msg|, 1
  {
    if msg == [] then Some(Conversion(m, []))
    else if |msg| == 1 then ConvertSymbol(m, msg[0])
    else
      match ConvertMessage(m, msg[..|msg| - 1])
      case None => None
      case Some(done) =>
        match ConvertMessage(done.machine, [msg[|msg| - 1]])
        case None => None
        case Some(last) => Some(Conversion(last.machine, done.text + last.text))
  }

  /** A message converts exactly when its front does and its last symbol
      is a space or in the alphabet; the front's output is then a prefix of
      the output. */
  lemma ConvertMessageLast(m: Machine, msg: string)
    requires Ready(m) && msg != []
    ensures var n := |msg| - 1;
      ConvertMessage(m, msg).Some? <==>
        ConvertMessage(m, msg[..n]).Some? && (msg[n] == ' ' || m.alphabet.Contains(msg[n]))
    ensures var n := |msg| - 1;
      ConvertMessage(m, msg).Some? ==>
        ConvertMessage(m, msg).value.text[..n] == ConvertMessage(m, msg[..n]).value.text
  {
    if |msg| == 1 {
      assert msg[..0] == [];
    } else {
      var n := |msg| - 1;
      var front := ConvertMessage(m, msg[..n]);
      if front.Some? {
        assert ConvertMessage(front.value.machine, [msg[n]]) == ConvertSymbol(front.value.machine, msg[n]);
      }
    }
  }

  /** The front of a converted message converts, to the front of the
      output. */
  lemma ConvertMessageFront(m: Machine, msg: string)
    requires Ready(m) && msg != []
    requires ConvertMessage(m, msg).Some?
    ensures var n := |msg| - 1;
      && ConvertMessage(m, msg[..n]).Some?
      && ConvertMessage(m, msg).value.text[..n] == ConvertMessage(m, msg[..n]).value.text
  {
    if |msg| == 1 {
      assert msg[..0] == [];
    }
  }

  /** The last symbol is converted from the machine the front leaves. */
  lemma ConvertMessageLastSymbol(m: Machine, msg: string)
    requires Ready(m) && msg != []
    requires ConvertMessage(m, msg).Some?
    ensures var n := |msg| - 1;
      && ConvertMessage(m, msg[..n]).Some?
      && var last := ConvertSymbol(ConvertMessage(m, msg[..n]).value.machine, msg[n]);
      && last.Some?
      && ConvertMessage(m, msg).value.machine == last.value.machine
      && ConvertMessage(m, msg).value.text[n] == last.value.text[0]
  {
    if |msg| == 1 {
      assert msg[..0] == [];
    } else {
      var n := |msg| - 1;
      var front := ConvertMessage(m, msg[..n]);
      assert ConvertMessage(front.value.machine, [msg[n]]) == ConvertSymbol(front.value.machine, msg[n]);
    }
  }

  /** Converting a message is converting its front and then its last
      symbol from the machine the front leaves. */
  lemma ConvertMessageSnoc(m: Machine, msg: string, front: Conversion, last: Conversion)
    requires Ready(m) && msg != []
    requires ConvertMessage(m, msg[..|msg| - 1]) == Some(front)
    requires ConvertSymbol(front.machine, msg[|msg| - 1]) == Some(last)
    ensures ConvertMessage(m, msg) == Some(Conversion(last.machine, front.text + last.text))
  {
    var n := |msg| - 1;
    if n == 0 {
      PrefixOfPrefix(msg, 0, 0);
      assert front.text == [];
      EmptyAppend(front.text, last.text);
    } else {
      assert ConvertMessage(front.machine, [msg[n]]) == ConvertSymbol(front.machine, msg[n]);
    }
  }

  /** A message converts exactly when each of its symbols is a space or
      belongs to the alphabet. */
  lemma {:induction false} ConvertMessageDefined(m: Machine, msg: string)
    requires Ready(m)
    ensures ConvertMessage(m, msg).Some? <==>
      forall i :: 0 <= i < |msg| ==> msg[i] == ' ' || m.alphabet.Contains(msg[i])
    decreases |msg|
  {
    if msg != [] {
      var n := |msg| - 1;
      var front := msg[..n];
      ConvertMessageDefined(m, front);
      ConvertMessageLast(m, msg);
      assert forall i :: 0 <= i < n ==> front[i] == msg[i];
    }
  }

  /** The conversion of a prefix is the prefix of the conversion. */
  lemma {:induction false} ConvertMessagePrefix(m: Machine, msg: string, j: int)
    requires Ready(m) && 0 <= j <= |msg|
    requires ConvertMessage(m, msg).Some?
    ensures ConvertMessage(m, msg[..j]).Some?
    ensures ConvertMessage(m, msg[..j]).value.text == ConvertMessage(m, msg).value.text[..j]
    decreases |msg|
  {
    if j < |msg| {
      var n := |msg| - 1;
      ConvertMessageFront(m, msg);
      ConvertMessagePrefix(m, msg[..n], j);
      PrefixOfPrefix(msg, n, j);
      PrefixOfPrefix(ConvertMessage(m, msg).value.text, n, j);
    } else {
      PrefixOfPrefix(msg, j, j);
    }
  }

  /** One symbol's turn steps the rotors exactly when it is not a space. */
  lemma ConvertSymbolSteps(m: Machine, c: char)
    requires Ready(m) && ConvertSymbol(m, c).Some?
    ensures ConvertSymbol(m, c).value.machine == if c == ' ' then m else Step(m)
  {
  }

  /** The last symbol steps the rotors left by the front exactly when it is
      not a space. */
  lemma ConvertMessageLastSteps(m: Machine, msg: string)
    requires Ready(m) && msg != []
    requires ConvertMessage(m, msg).Some?
    ensures var n := |msg| - 1;
      && ConvertMessage(m, msg[..n]).Some?
      && var before := ConvertMessage(m, msg[..n]).value.machine;
      ConvertMessage(m, msg).value.machine == if msg[n] == ' ' then before else Step(before)
  {
    var n := |msg| - 1;
    ConvertMessageLastSymbol(m, msg);
    ConvertSymbolSteps(ConvertMessage(m, msg[..n]).value.machine, msg[n]);
  }

  /** After a message the rotors have stepped once per symbol other than a
      space. */
  lemma {:induction false} ConvertMessageSteps(m: Machine, msg: string)
    requires Ready(m)
    requires ConvertMessage(m, msg).Some?
    ensures ConvertMessage(m, msg).value.machine == StepN(m, CountOther(msg, ' '))
    decreases |msg|
  {
    if msg != [] {
      var n := |msg| - 1;
      ConvertMessageLastSteps(m, msg);
      ConvertMessageSteps(m, msg[..n]);
      var before := ConvertMessage(m, msg[..n]).value.machine;
      CountOtherLast(msg, ' ');
      if msg[n] != ' ' {
        StepNNext(m, CountOther(msg[..n], ' '), CountOther(msg, ' '));
      }
    }
  }

  /** One symbol's turn: a space gives a space, any other symbol the
      alphabet symbol of its signal at the stepped positions. */
  lemma ConvertSymbolText(m: Machine, c: char)
    requires Ready(m) && ConvertSymbol(m, c).Some?
    ensures c == ' ' ==> ConvertSymbol(m, c).value.text == [' ']
    ensures c != ' ' ==> m.alphabet.Contains(c)
    ensures c != ' ' ==>
      ConvertSymbol(m, c).value.text == [m.alphabet.ToChar(Signal(Step(m), m.alphabet.ToInt(c)))]
  {
  }

  /** Symbol `i` of the output is the conversion of symbol `i` from the
      machine left by the symbols before it. */
  lemma ConvertMessageAtSymbol(m: Machine, msg: string, i: int)
    requires Ready(m) && 0 <= i < |msg|
    requires ConvertMessage(m, msg).Some?
    ensures ConvertMessage(m, msg[..i]).Some?
    ensures var before := ConvertMessage(m, msg[..i]).value.machine;
      && ConvertSymbol(before, msg[i]).Some?
      && ConvertMessage(m, msg).value.text[i] == ConvertSymbol(before, msg[i]).value.text[0]
  {
    var p := msg[..i + 1];
    ConvertMessagePrefix(m, msg, i + 1);
    assert p[..i] == msg[..i] && p[i] == msg[i];
    ConvertMessageLastSymbol(m, p);
  }

  /** The rotor positions symbol `i` is converted at: one step for each
      non-space symbol up to and including it. */
  lemma ConvertMessageAtPositions(m: Machine, msg: string, i: int)
    requires Ready(m) && 0 <= i < |msg| && msg[i] != ' '
    requires ConvertMessage(m, msg[..i]).Some?
    ensures Step(ConvertMessage(m, msg[..i]).value.machine) == StepN(m, CountOther(msg[..i + 1], ' '))
  {
    ConvertMessageSteps(m, msg[..i]);
    var p := msg[..i + 1];
    assert p[..i] == msg[..i] && p[i] == msg[i];
    CountOtherLast(p, ' ');
    StepNNext(m, CountOther(msg[..i], ' '), CountOther(p, ' '));
  }

  /** Symbol `i` of the output: a space for a space, and otherwise the
      alphabet symbol that `convert(int)` gives at the rotor positions
      reached after stepping once for each non-space symbol up to and
      including symbol `i`. */
  lemma ConvertMessageAt(m: Machine, msg: string, i: int)
    requires Ready(m) && 0 <= i < |msg|
    requires ConvertMessage(m, msg).Some?
    ensures msg[i] == ' ' ==> ConvertMessage(m, msg).value.text[i] == ' '
    ensures msg[i] != ' ' ==> m.alphabet.Contains(msg[i])
    ensures msg[i] != ' ' ==>
      var k := StepN(m, CountOther(msg[..i + 1], ' '));
      ConvertMessage(m, msg).value.text[i] == m.alphabet.ToChar(Signal(k, m.alphabet.ToInt(msg[i])))
  {
    ConvertMessageAtSymbol(m, msg, i);
    var before := ConvertMessage(m, msg[..i]).value.machine;
    ConvertSymbolText(before, msg[i]);
    if msg[i] != ' ' {
      ConvertMessageAtPositions(m, msg, i);
    }
  }

  /** Stepping keeps a machine reciprocal: it changes rotor positions only. */
  lemma ReciprocalStep(m: Machine)
    requires Ready(m) && Reciprocal(m)
    ensures Reciprocal(Step(m))
  {
    StepSame(m);
    ReciprocalSame(m, Step(m));
  }

  /** A message leaves a reciprocal machine reciprocal. */
  lemma {:induction false} ConvertMessageReciprocal(m: Machine, msg: string)
    requires Ready(m) && Reciprocal(m)
    requires ConvertMessage(m, msg).Some?
    ensures Reciprocal(ConvertMessage(m, msg).value.machine)
    decreases |msg|
  {
    if msg != [] {
      var n := |msg| - 1;
      ConvertMessageLastSteps(m, msg);
      ConvertMessageReciprocal(m, msg[..n]);
      ReciprocalStep(ConvertMessage(m, msg[..n]).value.machine);
    }
  }

  /** From the same rotor positions, converting a symbol's conversion gives
      the symbol back and leaves the rotors where the first conversion
      left them. */
  lemma ConvertSymbolInvolution(m: Machine, c: char)
    requires Ready(m) && Reciprocal(m)
    requires m.alphabet.Valid() && !m.alphabet.Contains(' ')
    requires ConvertSymbol(m, c).Some?
    ensures var d := ConvertSymbol(m, c).value;
      ConvertSymbol(m, d.text[0]) == Some(Conversion(d.machine, [c]))
  {
    if c != ' ' {
      var a := m.alphabet;
      var x := a.ToInt(c);
      var m' := Step(m);
      ReciprocalStep(m);
      var y := Signal(m', x);
      SignalInvolution(m', x);
      ToIntToChar(a, y);
      assert ConvertSymbol(m, c).value == Conversion(m', [a.ToChar(y)]);
    }
  }

  /** The step of the involution: when the front of the output converts
      back to the front of the message, and the last output symbol back to
      the last message symbol, the whole output converts back. */
  lemma InvolutionSnoc(m: Machine, out: string, msg: string, front: Machine, last: Machine)
    requires Ready(m) && Ready(front) && |out| == |msg| > 0
    requires ConvertMessage(m, out[..|out| - 1]) == Some(Conversion(front, msg[..|msg| - 1]))
    requires ConvertSymbol(front, out[|out| - 1]) == Some(Conversion(last, [msg[|msg| - 1]]))
    ensures ConvertMessage(m, out) == Some(Conversion(last, msg))
  {
    var n := |msg| - 1;
    var f := Conversion(front, msg[..n]);
    var l := Conversion(last, [msg[n]]);
    FrontLast(msg);
    ConvertMessageSnoc(m, out, f, l);
  }

  /** Deciphering is enciphering: from the same starting positions, a
      machine whose reflector and plugboard are involutions turns the
      conversion of a message back into the message, ending at the same
      positions. */
  lemma {:induction false} ConvertMessageInvolution(m: Machine, msg: string)
    requires Ready(m) && Reciprocal(m)
    requires m.alphabet.Valid() && !m.alphabet.Contains(' ')
    requires ConvertMessage(m, msg).Some?
    ensures var d := ConvertMessage(m, msg).value;
      ConvertMessage(m, d.text) == Some(Conversion(d.machine, msg))
    decreases |msg|
  {
    var d := ConvertMessage(m, msg).value;
    if msg == [] {
      assert d.text == [];
    } else {
      var n := |msg| - 1;
      ConvertMessageLast(m, msg);
      ConvertMessageLastSymbol(m, msg);
      var front := ConvertMessage(m, msg[..n]).value;
      var s := ConvertSymbol(front.machine, msg[n]).value;
      ConvertMessageInvolution(m, msg[..n]);
      ConvertMessageReciprocal(m, msg[..n]);
      ConvertSymbolInvolution(front.machine, msg[n]);
      assert d.text[..n] == front.text && d.text[n] == s.text[0];
      InvolutionSnoc(m, d.text, msg, front.machine, d.machine);
    }
  }

  /** The loop of `convert(String)` (lines 135-149), symbol by symbol; it
      stops at the first symbol outside the alphabet. */
  method ConvertString(m: Machine, msg: string) returns (r: Option<Conversion>)
    requires Ready(m)
    ensures r == ConvertMessage(m, msg)
  {
    var done := Conversion(m, []);
    var i := 0;
    while i < |msg|
      invariant 0 <= i <= |msg|
      invariant ConvertMessage(m, msg[..i]) == Some(done)
    {
      var next := ConvertSymbol(done.machine, msg[i]);
      assert msg[..i + 1][..i] == msg[..i] && msg[..i + 1][i] == msg[i];
      if next.None? {
        ConvertMessageDefined(m, msg);
        return None;
      }
      ConvertMessageSnoc(m, msg[..i + 1], done, next.value);
      done := Conversion(next.value.machine, done.text + next.value.text);
      i := i + 1;
    }
    assert msg[..i] == msg;
    return Some(done);
  }
}

=== FILE: options.dfy ===
/** The optional value used for the plugboard, which may be absent. */
module Options {

  datatype Option<+T> = None | Some(value: T)
}

=== FILE: permutations.dfy ===
/** A permutation of an alphabet given as a list of cycles
    (Permutation.java). Symbols in no cycle map to themselves. */
module Permutations {
  import opened Text
  import opened Alphabets
  import CycleParsing

  datatype Permutation = Permutation(alphabet: Alphabet, cycles: seq<string>)

  /** `new Permutation(spec, alphabet)`: decodes the cycle notation. */
  function NewPermutation(spec: string, alphabet: Alphabet): (p: Permutation)
    ensures p.alphabet == alphabet
    ensures forall k :: 0 <= k < |p.cycles| ==> '(' !in p.cycles[k] && ')' !in p.cycles[k]
    ensures forall c :: c in Letters && alphabet.Contains(c) ==>
      exists k :: 0 <= k < |p.cycles| && c in p.cycles[k]
  {
    var cs := CycleParsing.ListOfCycles(spec, alphabet);
    CycleParsing.ListOfCyclesShape(spec, alphabet);
    assert forall c :: c in Letters && alphabet.Contains(c) ==>
      exists k :: 0 <= k < |cs| && c in cs[k]
    by {
      forall c | c in Letters && alphabet.Contains(c)
        ensures exists k :: 0 <= k < |cs| && c in cs[k]
      {
        CycleParsing.EveryLetterListed(spec, alphabet, c);
      }
    }
    Permutation(alphabet, cs)
  }

  function Size(p: Permutation): nat {
    p.alphabet.Size()
  }

  /** Every symbol written in a cycle belongs to the alphabet. */
  predicate InAlphabet(p: Permutation) {
    forall k :: 0 <= k < |p.cycles| ==> forall c :: c in p.cycles[k] ==> p.alphabet.Contains(c)
  }

  /** No symbol repeats inside a cycle or occurs in two cycles. */
  predicate Disjoint(cycles: seq<string>) {
    && (forall k :: 0 <= k < |cycles| ==> Distinct(cycles[k]))
    && (forall k, l, i :: 0 <= k < l < |cycles| && 0 <= i < |cycles[k]| ==> cycles[k][i] !in cycles[l])
  }

  /** The cycles describe a bijection of a non-empty, duplicate-free alphabet. */
  predicate WellFormed(p: Permutation) {
    p.alphabet.Valid() && Size(p) > 0 && InAlphabet(p) && Disjoint(p.cycles)
  }

  lemma MulSign(d: int, n: int)
    requires n > 0
    ensures d >= 1 ==> d * n >= n
    ensures d <= -1 ==> d * n <= -n
  {
  }

  /** Quotient and remainder are determined by `a == q * n + r`, 0 <= r < n. */
  lemma ModUnique(a: int, n: int, q: int, r: int)
    requires n > 0 && 0 <= r < n && a == q * n + r
    ensures a % n == r && a / n == q
  {
    var q', r' := a / n, a % n;
    assert a == q' * n + r';
    assert (q - q') * n == r' - r;
    MulSign(q - q', n);
  }

  /** Stepping forward or backward by one inside a cycle of length `n`. */
  lemma StepMod(i: int, n: int)
    requires 0 <= i < n
    ensures (i + 1) % n == if i + 1 == n then 0 else i + 1
    ensures (i + n - 1) % n == if i == 0 then n - 1 else i - 1
  {
    if i + 1 == n {
      ModUnique(i + 1, n, 1, 0);
    } else {
      ModUnique(i + 1, n, 0, i + 1);
    }
    if i == 0 {
      ModUnique(i + n - 1, n, 0, n - 1);
    } else {
      ModUnique(i + n - 1, n, 1, i - 1);
    }
  }

  /** Java's `%` for a positive divisor: the quotient is truncated toward
      zero, so the remainder of a negative dividend is the negated
      remainder of its magnitude. Its value differs from the Euclidean
      `%` of Dafny below zero, but it is congruent to the dividend. */
  function JavaRem(a: int, n: int): (r: int)
    requires n > 0
    ensures -n < r < n
    ensures a >= 0 ==> r >= 0
    ensures a < 0 ==> r <= 0
    ensures (a - r) % n == 0
  {
    if a >= 0 then
      ModUnique(a - a % n, n, a / n, 0);
      a % n
    else
      var b := -a;
      ModUnique(a + b % n, n, -(b / n), 0);
      -(b % n)
  }

  /** `wrap`: Java's remainder, moved up by the size when negative. */
  function Wrap(p: Permutation, x: int): (r: int)
    requires Size(p) > 0
    ensures 0 <= r < Size(p)
  {
    var r := JavaRem(x, Size(p));
    if r < 0 then r + Size(p) else r
  }

  /** `wrap` gives the representative of `x` modulo the size in
      [0, size), also for negative `x`: it agrees with the Euclidean `%`. */
  lemma WrapMod(p: Permutation, x: int)
    requires Size(p) > 0
    ensures Wrap(p, x) == x % Size(p)
  {
    var n := Size(p);
    var r := JavaRem(x, n);
    var q := (x - r) / n;
    assert x - r == q * n;
    if r < 0 {
      ModUnique(x, n, q - 1, r + n);
    } else {
      ModUnique(x, n, q, r);
    }
  }

  /** Adding any multiple of the size does not change the wrapped value. */
  lemma WrapPeriodic(p: Permutation, x: int, k: int)
    requires Size(p) > 0
    ensures Wrap(p, x + k * Size(p)) == Wrap(p, x)
  {
    var n := Size(p);
    var q := x / n;
    assert x == q * n + x % n;
    assert x + k * n == (q + k) * n + x % n;
    ModUnique(x + k * n, n, q + k, x % n);
    WrapMod(p, x);
    WrapMod(p, x + k * n);
  }

  /** One full size more wraps to the same value. */
  lemma WrapAddSize(p: Permutation, x: int, n: int)
    requires n == Size(p) > 0
    ensures Wrap(p, x + n) == Wrap(p, x)
  {
    WrapPeriodic(p, x, 1);
  }

  /** The index of the first cycle holding `c`, or the number of cycles
      when none does. */
  function FirstWith(cycles: seq<string>, c: char): (k: nat)
    ensures k <= |cycles|
    ensures k < |cycles| ==> c in cycles[k]
  {
    FirstFrom(cycles, c, 0)
  }

  /** The index of the first cycle at or after `k` holding `c`. */
  function FirstFrom(cycles: seq<string>, c: char, k: nat): (r: nat)
    requires k <= |cycles|
    ensures k <= r <= |cycles|
    ensures r < |cycles| ==> c in cycles[r]
    decreases |cycles| - k
  {
    if k == |cycles| || c in cycles[k] then k else FirstFrom(cycles, c, k + 1)
  }

  /** No cycle between `k` and the one found holds `c`. */
  lemma {:induction false} FirstFromNone(cycles: seq<string>, c: char, k: nat, j: int)
    requires k <= |cycles| && k <= j < FirstFrom(cycles, c, k)
    ensures c !in cycles[j]
    decreases |cycles| - k
  {
    if j > k {
      FirstFromNone(cycles, c, k + 1, j);
    }
  }

  /** The position after `i` in a cycle of length `n`, the last position
      followed by the first. */
  function NextIndex(i: int, n: int): int {
    if i + 1 == n then 0 else i + 1
  }

  /** The position before `i` in a cycle of length `n`, the first position
      preceded by the last. */
  function PrevIndex(i: int, n: int): int {
    if i == 0 then n - 1 else i - 1
  }

  /** The symbol after `c` in cycle `x`. */
  function After(x: string, c: char): char
    requires c in x
  {
    x[NextIndex(IndexOf(x, c), |x|)]
  }

  /** The symbol before `c` in cycle `x`. */
  function Before(x: string, c: char): char
    requires c in x
  {
    x[PrevIndex(IndexOf(x, c), |x|)]
  }

  /** The neighbours in a cycle are its symbols one step forward and one
      step back modulo the cycle's length. */
  lemma AfterBeforeMod(x: string, c: char)
    requires c in x
    ensures After(x, c) == x[(IndexOf(x, c) + 1) % |x|]
    ensures Before(x, c) == x[(IndexOf(x, c) + |x| - 1) % |x|]
  {
    StepMod(IndexOf(x, c), |x|);
  }

  /** `permute(char)` on a list of cycles: the symbol after `c` in the
      first cycle holding it; a symbol in no cycle is returned unchanged. */
  function Successor(cycles: seq<string>, c: char): (d: char)
    ensures FirstWith(cycles, c) == |cycles| ==> d == c
    ensures FirstWith(cycles, c) < |cycles| ==> d == After(cycles[FirstWith(cycles, c)], c)
  {
    SuccessorFrom(cycles, c, 0)
  }

  /** The loop of `permute(char)` from the `k`-th cycle on. */
  function SuccessorFrom(cycles: seq<string>, c: char, k: nat): (d: char)
    requires k <= |cycles|
    ensures FirstFrom(cycles, c, k) == |cycles| ==> d == c
    ensures FirstFrom(cycles, c, k) < |cycles| ==> d == After(cycles[FirstFrom(cycles, c, k)], c)
    decreases |cycles| - k
  {
    if k == |cycles| then c
    else if c in cycles[k] then
      var x := cycles[k];
      var i := IndexOf(x, c);
      if i + 1 == |x| then x[0] else x[i + 1]
    else
      SuccessorFrom(cycles, c, k + 1)
  }

  /** `invert(char)` on a list of cycles: the symbol before `c` in the
      first cycle holding it; a symbol in no cycle is returned unchanged. */
  function Predecessor(cycles: seq<string>, c: char): (d: char)
    ensures FirstWith(cycles, c) == |cycles| ==> d == c
    ensures FirstWith(cycles, c) < |cycles| ==> d == Before(cycles[FirstWith(cycles, c)], c)
  {
    PredecessorFrom(cycles, c, 0)
  }

  /** The loop of `invert(char)` from the `k`-th cycle on. */
  function PredecessorFrom(cycles: seq<string>, c: char, k: nat): (d: char)
    requires k <= |cycles|
    ensures FirstFrom(cycles, c, k) == |cycles| ==> d == c
    ensures FirstFrom(cycles, c, k) < |cycles| ==> d == Before(cycles[FirstFrom(cycles, c, k)], c)
    decreases |cycles| - k
  {
    if k == |cycles| then c
    else if c in cycles[k] then
      var x := cycles[k];
      var i := IndexOf(x, c);
      if i == 0 then x[|x| - 1] else x[i - 1]
    else
      PredecessorFrom(cycles, c, k + 1)
  }

  function PermuteChar(p: Permutation, c: char): char {
    Successor(p.cycles, c)
  }

  function InvertChar(p: Permutation, c: char): char {
    Predecessor(p.cycles, c)
  }

  /** The result of the character forms stays in the alphabet. */
  lemma StaysInAlphabet(p: Permutation, c: char)
    requires InAlphabet(p)
    requires p.alphabet.Contains(c)
    ensures p.alphabet.Contains(PermuteChar(p, c))
    ensures p.alphabet.Contains(InvertChar(p, c))
  {
  }

  /** `permute(int)`: the index of the symbol that follows, in its cycle,
      the symbol at `i` reduced modulo the size. */
  function Permute(p: Permutation, i: int): (r: int)
    requires Size(p) > 0 && InAlphabet(p)
    ensures 0 <= r < Size(p)
    ensures p.alphabet.ToChar(r) == Successor(p.cycles, p.alphabet.ToChar(Wrap(p, i)))
  {
    var c := p.alphabet.ToChar(Wrap(p, i));
    StaysInAlphabet(p, c);
    p.alphabet.ToInt(PermuteChar(p, c))
  }

  /** `invert(int)`: the index of the symbol that precedes, in its cycle,
      the symbol at `i` reduced modulo the size. */
  function Invert(p: Permutation, i: int): (r: int)
    requires Size(p) > 0 && InAlphabet(p)
    ensures 0 <= r < Size(p)
    ensures p.alphabet.ToChar(r) == Predecessor(p.cycles, p.alphabet.ToChar(Wrap(p, i)))
  {
    var c := p.alphabet.ToChar(Wrap(p, i));
    StaysInAlphabet(p, c);
    p.alphabet.ToInt(InvertChar(p, c))
  }

  /** The int forms look only at the wrapped argument. */
  lemma PermuteWrap(p: Permutation, i: int, k: int)
    requires Size(p) > 0 && InAlphabet(p)
    ensures Permute(p, i + k * Size(p)) == Permute(p, Wrap(p, i))
    ensures Invert(p, i + k * Size(p)) == Invert(p, Wrap(p, i))
  {
    WrapPeriodic(p, i, k);
    var w := Wrap(p, i);
    ModUnique(w, Size(p), 0, w);
    WrapMod(p, w);
  }

  /** Wrapping the argument first changes nothing. */
  lemma PermuteWrapped(p: Permutation, i: int)
    requires Size(p) > 0 && InAlphabet(p)
    ensures Permute(p, Wrap(p, i)) == Permute(p, i)
    ensures Invert(p, Wrap(p, i)) == Invert(p, i)
  {
    WrapSmall(p, Wrap(p, i));
  }

  /** With disjoint cycles the first cycle holding `c` is the only one. */
  lemma FirstIs(cycles: seq<string>, k: int, c: char)
    requires Disjoint(cycles)
    requires 0 <= k < |cycles| && c in cycles[k]
    ensures FirstWith(cycles, c) == k
  {
    if k < FirstWith(cycles, c) {
      FirstFromNone(cycles, c, 0, k);
    }
  }

  /** With disjoint, duplicate-free cycles, `invert` undoes `permute`
      for every symbol. */
  lemma InvertAfterPermute(p: Permutation, c: char)
    requires Disjoint(p.cycles)
    ensures InvertChar(p, PermuteChar(p, c)) == c
  {
    var cs := p.cycles;
    var k := FirstWith(cs, c);
    if k < |cs| {
      var x := cs[k];
      var n := |x|;
      var i := IndexOf(x, c);
      var s := NextIndex(i, n);
      assert PermuteChar(p, c) == x[s];
      FirstIs(cs, k, x[s]);
      IndexOfDistinct(x, s);
    }
  }

  /** With disjoint, duplicate-free cycles, `permute` undoes `invert`
      for every symbol. */
  lemma PermuteAfterInvert(p: Permutation, c: char)
    requires Disjoint(p.cycles)
    ensures PermuteChar(p, InvertChar(p, c)) == c
  {
    var cs := p.cycles;
    var k := FirstWith(cs, c);
    if k < |cs| {
      var x := cs[k];
      var n := |x|;
      var i := IndexOf(x, c);
      var t := PrevIndex(i, n);
      assert InvertChar(p, c) == x[t];
      FirstIs(cs, k, x[t]);
      IndexOfDistinct(x, t);
    }
  }

  /** Wrapping leaves an index of [0, size) as it is. */
  lemma WrapSmall(p: Permutation, x: int)
    requires 0 <= x < Size(p)
    ensures Wrap(p, x) == x
  {
    ModUnique(x, Size(p), 0, x);
  }

  /** The int forms are mutually inverse on [0, size). */
  lemma InvertPermute(p: Permutation, i: int)
    requires WellFormed(p)
    requires 0 <= i < Size(p)
    ensures Invert(p, Permute(p, i)) == i
    ensures Permute(p, Invert(p, i)) == i
  {
    var a := p.alphabet;
    var c := a.ToChar(i);
    WrapSmall(p, i);
    var r := Permute(p, i);
    WrapSmall(p, r);
    assert a.ToChar(r) == PermuteChar(p, c);
    InvertAfterPermute(p, c);
    assert a.ToChar(Invert(p, r)) == c;
    ToIntToChar(a, i);
    ToIntToChar(a, Invert(p, r));
    var v := Invert(p, i);
    WrapSmall(p, v);
    assert a.ToChar(v) == InvertChar(p, c);
    PermuteAfterInvert(p, c);
    assert a.ToChar(Permute(p, v)) == c;
    ToIntToChar(a, Permute(p, v));
  }

  /** `derangement`: no stored cycle has length one. */
  function Derangement(p: Permutation): (r: bool)
    ensures r <==> forall k :: 0 <= k < |p.cycles| ==> |p.cycles[k]| != 1
  {
    NoSingleton(p.cycles)
  }

  function NoSingleton(cycles: seq<string>): (r: bool)
    ensures r <==> forall k :: 0 <= k < |cycles| ==> |cycles[k]| != 1
  {
    if cycles == [] then true
    else if |cycles[0]| == 1 then false
    else
      var r := NoSingleton(cycles[1..]);
      assert forall k :: 1 <= k < |cycles| ==> cycles[k] == cycles[1..][k - 1];
      r
  }

  /** For disjoint cycles, the derangement test holds exactly when no
      symbol written in a cycle is mapped to itself. */
  lemma DerangementNoFixedPoint(p: Permutation)
    requires Disjoint(p.cycles)
    ensures Derangement(p) <==>
      forall k, i :: 0 <= k < |p.cycles| && 0 <= i < |p.cycles[k]| ==> PermuteChar(p, p.cycles[k][i]) != p.cycles[k][i]
  {
    var cs := p.cycles;
    if Derangement(p) {
      forall k, i | 0 <= k < |cs| && 0 <= i < |cs[k]|
        ensures PermuteChar(p, cs[k][i]) != cs[k][i]
      {
        var x := cs[k];
        FirstIs(cs, k, x[i]);
        IndexOfDistinct(x, i);
      }
    } else {
      var k :| 0 <= k < |cs| && |cs[k]| == 1;
      FirstIs(cs, k, cs[k][0]);
      assert PermuteChar(p, cs[k][0]) == cs[k][0];
    }
  }

  /** "No value maps to itself": every symbol of the alphabet is moved. */
  predicate FixedPointFree(p: Permutation) {
    forall c :: p.alphabet.Contains(c) ==> PermuteChar(p, c) != c
  }

  /** As written, the derangement test misses a symbol of the alphabet that
      no cycle writes and that is not a letter (so no singleton is added for
      it): over the alphabet "AB1", the cycles "(AB)" pass the test while
      '1' maps to itself. */
  lemma DerangementMissesUnwritten()
    ensures NewPermutation("(AB)", Alphabet("AB1")) == Permutation(Alphabet("AB1"), ["AB"])
    ensures var p := Permutation(Alphabet("AB1"), ["AB"]);
      && Disjoint(p.cycles) && InAlphabet(p)
      && Derangement(p) && !FixedPointFree(p) && PermuteChar(p, '1') == '1'
  {
    DecodeAB();
    WellFormedAB();
    FixesOne();
  }

  /** '1' is in no cycle, so it maps to itself. */
  lemma FixesOne()
    ensures var p := Permutation(Alphabet("AB1"), ["AB"]);
      Derangement(p) && PermuteChar(p, '1') == '1' && !FixedPointFree(p)
  {
    var p := Permutation(Alphabet("AB1"), ["AB"]);
    assert FirstFrom(p.cycles, '1', 1) == 1;
    assert p.alphabet.Contains('1');
  }

  lemma WellFormedAB()
    ensures Disjoint(["AB"]) && InAlphabet(Permutation(Alphabet("AB1"), ["AB"]))
  {
    var p := Permutation(Alphabet("AB1"), ["AB"]);
    forall k, c | 0 <= k < |p.cycles| && c in p.cycles[k]
      ensures p.alphabet.Contains(c)
    {
      assert c == 'A' || c == 'B';
    }
  }

  /** The cycles "(AB)" over "AB1" decode to the one cycle written. */
  lemma DecodeAB()
    ensures NewPermutation("(AB)", Alphabet("AB1")) == Permutation(Alphabet("AB1"), ["AB"])
  {
    var a := Alphabet("AB1");
    assert CycleParsing.ListOfCycles("(AB)", a) == ["AB"] by {
      CycleParsing.ParseFormat(["AB"], a);
      FormatAB();
      NoneMissingAB();
      assert ["AB"] + [] == ["AB"];
    }
  }

  lemma FormatAB()
    ensures CycleParsing.Format(["AB"]) == "(AB)"
  {
  }

  /** Both letters of "AB1" are written, so no singleton is added. */
  lemma NoneMissingAB()
    ensures CycleParsing.MissingLetters(Letters, Alphabet("AB1"), "(AB)") == []
  {
    forall c | c in Letters && Alphabet("AB1").Contains(c)
      ensures c in "(AB)"
    {
      LetterCapital(c);
      assert c == 'A' || c == 'B' || c == '1';
    }
    NoLetterMissing(Letters, Alphabet("AB1"), "(AB)");
  }

  /** No singleton is added when each letter the alphabet holds is written. */
  lemma {:induction false} NoLetterMissing(letters: string, alphabet: Alphabet, spec: string)
    requires forall c :: c in letters && alphabet.Contains(c) ==> c in spec
    ensures CycleParsing.MissingLetters(letters, alphabet, spec) == []
  {
    if letters != [] {
      NoLetterMissing(letters[1..], alphabet, spec);
    }
  }

  /** The corrected test: no stored singleton, and every symbol of the
      alphabet written in some cycle. */
  function DerangementOver(p: Permutation): (r: bool)
    ensures r ==> Derangement(p)
    ensures r ==> forall i :: 0 <= i < |p.alphabet.chars| ==> FirstWith(p.cycles, p.alphabet.chars[i]) < |p.cycles|
  {
    Derangement(p) && AllWritten(p.cycles, p.alphabet.chars)
  }

  /** Every symbol of `chars` is held by some cycle. */
  function AllWritten(cycles: seq<string>, chars: seq<char>): (r: bool)
    ensures r <==> forall i :: 0 <= i < |chars| ==> FirstWith(cycles, chars[i]) < |cycles|
  {
    if chars == [] then true
    else
      var r := FirstWith(cycles, chars[0]) < |cycles| && AllWritten(cycles, chars[1..]);
      assert forall i :: 1 <= i < |chars| ==> chars[i] == chars[1..][i - 1];
      r
  }

  /** For disjoint cycles over the alphabet, the corrected test holds
      exactly when no symbol of the alphabet maps to itself. */
  lemma DerangementOverFixedPointFree(p: Permutation)
    requires Disjoint(p.cycles) && InAlphabet(p)
    ensures DerangementOver(p) <==> FixedPointFree(p)
  {
    var cs := p.cycles;
    DerangementNoFixedPoint(p);
    if DerangementOver(p) {
      forall c | p.alphabet.Contains(c)
        ensures PermuteChar(p, c) != c
      {
        var j := IndexOf(p.alphabet.chars, c);
        var k := FirstWith(cs, c);
        assert k < |cs|;
        var i := IndexOf(cs[k], c);
        assert PermuteChar(p, cs[k][i]) != cs[k][i];
      }
    }
    if FixedPointFree(p) {
      assert Derangement(p);
      forall j | 0 <= j < |p.alphabet.chars|
        ensures FirstWith(cs, p.alphabet.chars[j]) < |cs|
      {
        assert PermuteChar(p, p.alphabet.chars[j]) != p.alphabet.chars[j];
      }
    }
  }

  /** The permutation is its own inverse on the alphabet. */
  predicate Involutive(p: Permutation) {
    forall c :: p.alphabet.Contains(c) ==> PermuteChar(p, PermuteChar(p, c)) == c
  }

  /** Cycles of length at most two (the pairs of a reflector or a
      plugboard) make an involution. */
  lemma PairsInvolutive(p: Permutation)
    requires Disjoint(p.cycles)
    requires forall k :: 0 <= k < |p.cycles| ==> |p.cycles[k]| <= 2
    ensures Involutive(p)
  {
    var cs := p.cycles;
    forall c | p.alphabet.Contains(c)
      ensures PermuteChar(p, PermuteChar(p, c)) == c
    {
      var k := FirstWith(cs, c);
      if k < |cs| {
        var x := cs[k];
        var j := NextIndex(IndexOf(x, c), |x|);
        FirstIs(cs, k, x[j]);
        IndexOfDistinct(x, j);
      }
    }
  }

  /** An involutive permutation applied twice through the int form
      returns every index of [0, size). */
  lemma InvolutiveTwice(p: Permutation, i: int)
    requires WellFormed(p) && Involutive(p)
    requires 0 <= i < Size(p)
    ensures Permute(p, Permute(p, i)) == i
  {
    var a := p.alphabet;
    var c := a.ToChar(i);
    WrapSmall(p, i);
    var r := Permute(p, i);
    WrapSmall(p, r);
    assert a.ToChar(r) == PermuteChar(p, c);
    assert a.ToChar(Permute(p, r)) == c;
    ToIntToChar(a, i);
    ToIntToChar(a, Permute(p, r));
  }
}

=== FILE: rotors.dfy ===
/** Rotors (Rotor.java, MovingRotor.java): a permutation together with a
    position. The base rotor never moves and is never at a notch; a moving
    rotor advances by one position and reports a notch when the symbol at
    its position is one of its notch symbols. Fixed rotors and reflectors
    behave as the base rotor here. */
module Rotors {
  import opened Alphabets
  import opened Permutations

  /** The notch string of a moving rotor keeps its leading type tag ('M'),
      exactly as the configuration reader passes it. */
  datatype Kind = Fixed | Moving(notches: string)

  datatype Rotor = Rotor(name: string, perm: Permutation, setting: int, kind: Kind)

  /** `new Rotor(name, perm)`: a non-moving rotor at position 0. */
  function NewRotor(name: string, perm: Permutation): (r: Rotor)
    ensures r.setting == 0 && r.name == name && r.perm == perm
    ensures r.kind == Fixed && !Rotates(r)
  {
    Rotor(name, perm, 0, Fixed)
  }

  /** `new MovingRotor(name, perm, notches)`: a moving rotor at position 0. */
  function NewMovingRotor(name: string, perm: Permutation, notches: string): (r: Rotor)
    ensures r.setting == 0 && r.name == name && r.perm == perm
    ensures r.kind == Moving(notches) && Rotates(r)
  {
    Rotor(name, perm, 0, Moving(notches))
  }

  function RotorSize(r: Rotor): nat {
    Size(r.perm)
  }

  /** `rotates()`: true exactly for moving rotors. */
  predicate Rotates(r: Rotor) {
    r.kind.Moving?
  }

  /** `reflecting()` of the base rotor; the reflector that overrides it is
      not part of this model. */
  predicate Reflecting(r: Rotor) {
    false
  }

  /** `set(int)`: the position is stored as given, without wrapping. */
  function SetInt(r: Rotor, posn: int): (r': Rotor)
    ensures r'.setting == posn
    ensures r' == r.(setting := r'.setting)
  {
    r.(setting := posn)
  }

  /** `set(char)`: the position becomes the index of `c`, so the symbol at
      the new position is `c`. */
  function SetChar(r: Rotor, c: char): (r': Rotor)
    requires r.perm.alphabet.Contains(c)
    ensures 0 <= r'.setting < RotorSize(r)
    ensures r.perm.alphabet.ToChar(r'.setting) == c
    ensures r' == r.(setting := r'.setting)
  {
    r.(setting := r.perm.alphabet.ToInt(c))
  }

  /** `Wrap` may be applied before adding: the sum is reduced the same way. */
  lemma WrapShift(p: Permutation, a: int, b: int)
    requires Size(p) > 0
    ensures Wrap(p, Wrap(p, a) + b) == Wrap(p, a + b)
  {
    var n := Size(p);
    WrapMod(p, a);
    assert a == (a / n) * n + a % n;
    assert Wrap(p, a) + b == (a + b) + (-(a / n)) * n;
    WrapPeriodic(p, a + b, -(a / n));
  }

  /** Two indices of [0, size) that wrap to the same value after the same
      shift are equal. */
  lemma WrapCancel(p: Permutation, x: int, z: int, s: int)
    requires 0 <= x < Size(p) && 0 <= z < Size(p)
    requires Wrap(p, x + s) == Wrap(p, z + s)
    ensures x == z
  {
    WrapShift(p, x + s, -s);
    WrapShift(p, z + s, -s);
    assert x + s + -s == x && z + s + -s == z;
    WrapSmall(p, x);
    WrapSmall(p, z);
  }

  /** `convertForward(p)`: the permutation seen through the rotor's
      position. */
  function ConvertForward(r: Rotor, p: int): (y: int)
    requires RotorSize(r) > 0 && InAlphabet(r.perm)
    ensures 0 <= y < RotorSize(r)
    ensures Wrap(r.perm, y + r.setting) == Permute(r.perm, p + r.setting)
  {
    var perm := r.perm;
    var q := Permute(perm, Wrap(perm, r.setting + p));
    PermuteWrapped(perm, r.setting + p);
    WrapShift(perm, q - r.setting, r.setting);
    WrapSmall(perm, q);
    Wrap(perm, q - r.setting)
  }

  /** `convertBackward(e)`: the inverse permutation seen through the
      rotor's position. */
  function ConvertBackward(r: Rotor, e: int): (y: int)
    requires RotorSize(r) > 0 && InAlphabet(r.perm)
    ensures 0 <= y < RotorSize(r)
    ensures Wrap(r.perm, y + r.setting) == Invert(r.perm, e + r.setting)
  {
    var perm := r.perm;
    var q := Invert(perm, Wrap(perm, r.setting + e));
    PermuteWrapped(perm, r.setting + e);
    WrapShift(perm, q - r.setting, r.setting);
    WrapSmall(perm, q);
    Wrap(perm, q - r.setting)
  }

  /** Undoing a shifted permutation: if `y` is `x` sent through the
      permutation at shift `s`, `z` is `y` sent back, and the inverse
      undoes the permutation at the wrapped `x + s`, then `z` is `x`. */
  lemma UndoShifted(perm: Permutation, s: int, x: int, y: int, z: int)
    requires Size(perm) > 0 && InAlphabet(perm)
    requires 0 <= x < Size(perm) && 0 <= z < Size(perm)
    requires Invert(perm, Permute(perm, Wrap(perm, x + s))) == Wrap(perm, x + s)
    requires Wrap(perm, y + s) == Permute(perm, x + s)
    requires Wrap(perm, z + s) == Invert(perm, y + s)
    ensures z == x
  {
    PermuteWrapped(perm, x + s);
    PermuteWrapped(perm, y + s);
    WrapCancel(perm, x, z, s);
  }

  /** The mirror image: sending back first and then through. */
  lemma RedoShifted(perm: Permutation, s: int, x: int, y: int, z: int)
    requires Size(perm) > 0 && InAlphabet(perm)
    requires 0 <= x < Size(perm) && 0 <= z < Size(perm)
    requires Permute(perm, Invert(perm, Wrap(perm, x + s))) == Wrap(perm, x + s)
    requires Wrap(perm, y + s) == Invert(perm, x + s)
    requires Wrap(perm, z + s) == Permute(perm, y + s)
    ensures z == x
  {
    PermuteWrapped(perm, x + s);
    PermuteWrapped(perm, y + s);
    WrapCancel(perm, x, z, s);
  }

  /** `convertBackward` undoes `convertForward` at `x` whenever the
      permutation's inverse undoes it at the shifted `x`. */
  lemma BackwardForwardAt(r: Rotor, x: int)
    requires RotorSize(r) > 0 && InAlphabet(r.perm)
    requires 0 <= x < RotorSize(r)
    requires Invert(r.perm, Permute(r.perm, Wrap(r.perm, x + r.setting))) == Wrap(r.perm, x + r.setting)
    ensures ConvertBackward(r, ConvertForward(r, x)) == x
  {
    var y := ConvertForward(r, x);
    UndoShifted(r.perm, r.setting, x, y, ConvertBackward(r, y));
  }

  /** `convertForward` undoes `convertBackward` at `x` whenever the
      permutation undoes its inverse at the shifted `x`. */
  lemma ForwardBackwardAt(r: Rotor, x: int)
    requires RotorSize(r) > 0 && InAlphabet(r.perm)
    requires 0 <= x < RotorSize(r)
    requires Permute(r.perm, Invert(r.perm, Wrap(r.perm, x + r.setting))) == Wrap(r.perm, x + r.setting)
    ensures ConvertForward(r, ConvertBackward(r, x)) == x
  {
    var y := ConvertBackward(r, x);
    RedoShifted(r.perm, r.setting, x, y, ConvertForward(r, y));
  }

  /** At any position, `convertBackward` undoes `convertForward` on
      [0, size). */
  lemma BackwardForward(r: Rotor, x: int)
    requires WellFormed(r.perm)
    requires 0 <= x < RotorSize(r)
    ensures ConvertBackward(r, ConvertForward(r, x)) == x
  {
    InvertPermute(r.perm, Wrap(r.perm, x + r.setting));
    BackwardForwardAt(r, x);
  }

  /** At any position, `convertForward` undoes `convertBackward` on
      [0, size). */
  lemma ForwardBackward(r: Rotor, x: int)
    requires WellFormed(r.perm)
    requires 0 <= x < RotorSize(r)
    ensures ConvertForward(r, ConvertBackward(r, x)) == x
  {
    InvertPermute(r.perm, Wrap(r.perm, x + r.setting));
    ForwardBackwardAt(r, x);
  }

  /** Through an involution twice at shift `s`: if `y` is `x` sent through
      and `z` is `y` sent through, and the permutation undoes itself at the
      wrapped `x + s`, then `z` is `x`. */
  lemma ShiftedTwice(perm: Permutation, s: int, x: int, y: int, z: int)
    requires Size(perm) > 0 && InAlphabet(perm)
    requires 0 <= x < Size(perm) && 0 <= z < Size(perm)
    requires Permute(perm, Permute(perm, Wrap(perm, x + s))) == Wrap(perm, x + s)
    requires Wrap(perm, y + s) == Permute(perm, x + s)
    requires Wrap(perm, z + s) == Permute(perm, y + s)
    ensures z == x
  {
    PermuteWrapped(perm, x + s);
    PermuteWrapped(perm, y + s);
    WrapCancel(perm, x, z, s);
  }

  /** `convertForward` twice is the identity at `x` whenever the
      permutation undoes itself at the shifted `x`. */
  lemma ForwardTwiceAt(r: Rotor, x: int)
    requires RotorSize(r) > 0 && InAlphabet(r.perm)
    requires 0 <= x < RotorSize(r)
    requires Permute(r.perm, Permute(r.perm, Wrap(r.perm, x + r.setting))) == Wrap(r.perm, x + r.setting)
    ensures ConvertForward(r, ConvertForward(r, x)) == x
  {
    var y := ConvertForward(r, x);
    ShiftedTwice(r.perm, r.setting, x, y, ConvertForward(r, y));
  }

  /** A rotor whose permutation is an involution (a reflector) is one at
      every position: `convertForward` twice returns every index. */
  lemma ForwardTwice(r: Rotor, x: int)
    requires WellFormed(r.perm) && Involutive(r.perm)
    requires 0 <= x < RotorSize(r)
    ensures ConvertForward(r, ConvertForward(r, x)) == x
  {
    InvolutiveTwice(r.perm, Wrap(r.perm, x + r.setting));
    ForwardTwiceAt(r, x);
  }

  /** At position 0 the rotor is its permutation. */
  lemma ForwardAtZero(r: Rotor, x: int)
    requires RotorSize(r) > 0 && InAlphabet(r.perm)
    requires r.setting == 0 && 0 <= x < RotorSize(r)
    ensures ConvertForward(r, x) == Permute(r.perm, x)
    ensures ConvertBackward(r, x) == Invert(r.perm, x)
  {
    WrapSmall(r.perm, ConvertForward(r, x));
    WrapSmall(r.perm, ConvertBackward(r, x));
  }

  /** From a position in [0, size), the next position wraps only at the end. */
  lemma WrapNext(p: Permutation, s: int)
    requires Size(p) > 0
    ensures 0 <= s < Size(p) ==> Wrap(p, s + 1) == if s + 1 == Size(p) then 0 else s + 1
  {
    if 0 <= s < Size(p) {
      WrapMod(p, s + 1);
      StepMod(s, Size(p));
    }
  }

  /** `advance()`: a moving rotor steps to the next position, the last
      position wrapping to 0; the base rotor stays put. Only the position
      changes. */
  function Advance(r: Rotor): (r': Rotor)
    requires Rotates(r) ==> RotorSize(r) > 0
    ensures r' == r.(setting := r'.setting)
    ensures !Rotates(r) ==> r' == r
    ensures Rotates(r) ==> 0 <= r'.setting < RotorSize(r)
    ensures Rotates(r) && 0 <= r.setting < RotorSize(r) ==>
      r'.setting == if r.setting + 1 == RotorSize(r) then 0 else r.setting + 1
  {
    match r.kind
    case Fixed => r
    case Moving(_) =>
      WrapNext(r.perm, r.setting);
      r.(setting := Wrap(r.perm, r.setting + 1))
  }

  /** A moving rotor's new position is its old one plus one, modulo the
      size, also from a position outside [0, size). */
  lemma AdvanceMod(r: Rotor)
    requires Rotates(r) && RotorSize(r) > 0
    ensures Advance(r).setting == (r.setting + 1) % RotorSize(r)
  {
    WrapMod(r.perm, r.setting + 1);
  }

  /** `k` successive advances. */
  function AdvanceN(r: Rotor, k: nat): (r': Rotor)
    requires Rotates(r) ==> RotorSize(r) > 0
    ensures r' == r.(setting := r'.setting)
    decreases k
  {
    if k == 0 then r
    else if k == 1 then Advance(r)
    else AdvanceN(AdvanceN(r, 1), k - 1)
  }

  /** `k` advances are one advance followed by `k - 1` more. */
  lemma AdvanceNStep(r: Rotor, k: nat)
    requires Rotates(r) ==> RotorSize(r) > 0
    requires k >= 1
    ensures AdvanceN(r, k) == AdvanceN(Advance(r), k - 1)
  {
    assert AdvanceN(r, 1) == Advance(r);
  }

  /** `k` advances of a moving rotor from a position in [0, size) add `k`
      to its position, wrapped into [0, size). */
  lemma {:induction false} AdvanceNWrap(r: Rotor, k: nat)
    requires Rotates(r) && RotorSize(r) > 0
    requires 0 <= r.setting < RotorSize(r)
    ensures AdvanceN(r, k).setting == Wrap(r.perm, r.setting + k)
    decreases k
  {
    if k == 0 {
      WrapSmall(r.perm, r.setting);
    } else {
      var r1 := Advance(r);
      assert r1.setting == Wrap(r.perm, r.setting + 1);
      AdvanceNStep(r, k);
      AdvanceNWrap(r1, k - 1);
      WrapShift(r.perm, r.setting + 1, k - 1);
    }
  }

  /** The same in terms of the remainder: `k` advances add `k` modulo the
      size. */
  lemma AdvanceNMod(r: Rotor, k: nat)
    requires Rotates(r) && RotorSize(r) > 0
    requires 0 <= r.setting < RotorSize(r)
    ensures AdvanceN(r, k).setting == (r.setting + k) % RotorSize(r)
  {
    AdvanceNWrap(r, k);
    WrapMod(r.perm, r.setting + k);
  }

  /** Advancing `a` times and then `b` times is advancing `a + b` times. */
  lemma {:induction false} AdvanceNAdd(r: Rotor, a: nat, b: nat, total: nat)
    requires Rotates(r) ==> RotorSize(r) > 0
    requires total == a + b
    ensures AdvanceN(r, total) == AdvanceN(AdvanceN(r, a), b)
    decreases a
  {
    if a > 0 {
      AdvanceNStep(r, a);
      AdvanceNStep(r, total);
      AdvanceNAdd(Advance(r), a - 1, b, total - 1);
    }
  }

  /** Counting up from a position in [0, size): `k` advances reach
      `setting + k` until the count meets the size, where it is 0. */
  lemma {:induction false} AdvanceNCount(r: Rotor, k: nat)
    requires Rotates(r) && RotorSize(r) > 0
    requires 0 <= r.setting && r.setting + k <= RotorSize(r)
    requires r.setting < RotorSize(r)
    ensures AdvanceN(r, k).setting == if r.setting + k == RotorSize(r) then 0 else r.setting + k
    decreases k
  {
    if k > 0 {
      AdvanceNStep(r, k);
      AdvanceNCount(Advance(r), k - 1);
    }
  }

  /** From a position in [0, size), a full turn of `size` advances brings
      a moving rotor back where it started. */
  lemma FullTurn(r: Rotor)
    requires Rotates(r) && RotorSize(r) > 0
    requires 0 <= r.setting < RotorSize(r)
    ensures AdvanceN(r, RotorSize(r)) == r
  {
    var n, s := RotorSize(r), r.setting;
    AdvanceNAdd(r, n - s, s, n);
    AdvanceNCount(r, n - s);
    var r0 := r.(setting := 0);
    assert AdvanceN(r, n - s) == r0;
    AdvanceNCount(r0, s);
  }

  /** A moving rotor can be asked for its notch when its notch string has
      at least its type tag and its position names a symbol. */
  predicate NotchReadable(r: Rotor) {
    r.kind.Moving? ==> |r.kind.notches| >= 1 && 0 <= r.setting < RotorSize(r)
  }

  /** `atNotch()`: a moving rotor is at a notch when the symbol at its
      position occurs in its notch string after the type tag; the base
      rotor never is. */
  function AtNotch(r: Rotor): (b: bool)
    requires NotchReadable(r)
    ensures b ==> Rotates(r)
    ensures Rotates(r) ==>
      (b <==> exists i :: 1 <= i < |r.kind.notches| && r.kind.notches[i] == r.perm.alphabet.ToChar(r.setting))
  {
    match r.kind
    case Fixed => false
    case Moving(notches) =>
      var b := r.perm.alphabet.ToChar(r.setting) in notches[1..];
      assert forall i :: 1 <= i < |notches| ==> notches[i] == notches[1..][i - 1];
      b
  }

  /** The positions at which a moving rotor is at a notch: the indices of
      the notch symbols after the type tag. */
  function NotchPositions(r: Rotor): set<int>
    requires r.kind.Moving?
  {
    var ns := r.kind.notches;
    set i | 1 <= i < |ns| && r.perm.alphabet.Contains(ns[i]) :: r.perm.alphabet.ToInt(ns[i])
  }

  /** In a duplicate-free alphabet, a moving rotor is at a notch exactly
      when its position is one of its notch positions. */
  lemma AtNotchPositions(r: Rotor)
    requires r.perm.alphabet.Valid() && r.kind.Moving? && NotchReadable(r)
    ensures AtNotch(r) <==> r.setting in NotchPositions(r)
  {
    var a, ns := r.perm.alphabet, r.kind.notches;
    if AtNotch(r) {
      var i :| 1 <= i < |ns| && ns[i] == a.ToChar(r.setting);
      ToIntToChar(a, r.setting);
      assert a.ToInt(ns[i]) in NotchPositions(r);
    }
    if r.setting in NotchPositions(r) {
      var i :| 1 <= i < |ns| && a.Contains(ns[i]) && a.ToInt(ns[i]) == r.setting;
      assert ns[i] == a.ToChar(r.setting);
    }
  }

  /** The base rotor: advancing does nothing, it is never at a notch, and
      it neither rotates nor reflects. */
  lemma BaseRotor(r: Rotor)
    requires r.kind.Fixed?
    ensures Advance(r) == r && !AtNotch(r) && !Rotates(r) && !Reflecting(r)
  {
  }
}

=== FILE: signals.dfy ===
/** The signal path of `convert(int)` after the stepping
    (Machine.java:114-128): through the plugboard, forward through the
    rotors from the rightmost slot to slot 0, back through slots 1 to the
    rightmost, and through the plugboard again. */
module Signals {
  import opened Options
  import opened Alphabets
  import opened Permutations
  import opened Rotors
  import opened Machines

  /** The plugboard, or nothing when none is set. */
  function Plug(m: Machine, c: int): (y: int)
    requires Ready(m)
    ensures m.plugboard.Some? ==> 0 <= y < m.alphabet.Size()
    ensures m.plugboard.None? ==> y == c
  {
    match m.plugboard
    case None => c
    case Some(p) => Permute(p, c)
  }

  /** The signal going forward through slots `hi` down to `lo`. A single
      slot applies its rotor's `convertForward`; a longer run is its first
      slot followed by the rest; an empty run leaves the signal alone. */
  function Forward(m: Machine, c: int, hi: int, lo: int): (y: int)
    requires Ready(m) && 0 <= lo && hi < m.numRotors
    ensures lo <= hi ==> 0 <= y < m.alphabet.Size()
    ensures hi < lo ==> y == c
    decreases if hi < lo then 0 else hi - lo + 1
  {
    if hi < lo then c
    else if hi == lo then
      assert RotorOk(m.alphabet, Slot(m, hi));
      ConvertForward(Slot(m, hi), c)
    else Forward(m, Forward(m, c, hi, hi), hi - 1, lo)
  }

  /** The signal going back through slots `lo` up to `hi`: the run up to
      `hi - 1`, then slot `hi`'s `convertBackward`. */
  function Backward(m: Machine, c: int, lo: int, hi: int): (y: int)
    requires Ready(m) && 0 <= lo && hi < m.numRotors
    ensures lo <= hi ==> 0 <= y < m.alphabet.Size()
    ensures hi < lo ==> y == c
    decreases if hi < lo then 0 else hi - lo + 1
  {
    if hi < lo then c
    else if hi == lo then
      assert RotorOk(m.alphabet, Slot(m, hi));
      ConvertBackward(Slot(m, hi), c)
    else Backward(m, Backward(m, c, lo, hi - 1), hi, hi)
  }

  /** The whole path for input index `c`, at the machine's current rotor
      positions: forward through every slot down to the reflector in slot
      0, back through slots 1 to the rightmost. */
  function Signal(m: Machine, c: int): (y: int)
    requires Ready(m)
    ensures 0 <= y < m.alphabet.Size()
  {
    var last := m.numRotors - 1;
    var f := Forward(m, Plug(m, c), last, 0);
    Plug(m, Backward(m, f, 1, last))
  }

  /** The forward loop of lines 117-120: slots `numRotors - 1` down to 0. */
  method ForwardPass(m: Machine, c: int) returns (y: int)
    requires Ready(m)
    ensures y == Forward(m, c, m.numRotors - 1, 0)
  {
    y := c;
    var index := m.numRotors - 1;
    while index >= 0
      invariant -1 <= index < m.numRotors
      invariant Forward(m, y, index, 0) == Forward(m, c, m.numRotors - 1, 0)
      decreases index
    {
      assert RotorOk(m.alphabet, Slot(m, index));
      y := ConvertForward(Slot(m, index), y);
      index := index - 1;
    }
  }

  /** The backward loop of lines 121-124: slots 1 up to `numRotors - 1`. */
  method BackwardPass(m: Machine, c: int) returns (y: int)
    requires Ready(m)
    ensures y == Backward(m, c, 1, m.numRotors - 1)
  {
    y := c;
    var index := 1;
    while index < m.numRotors
      invariant 1 <= index <= m.numRotors
      invariant y == Backward(m, c, 1, index - 1)
      decreases m.numRotors - index
    {
      assert RotorOk(m.alphabet, Slot(m, index));
      y := ConvertBackward(Slot(m, index), y);
      index := index + 1;
    }
  }

  /** The path of lines 114-128 as the Java code runs it. */
  method SignalLoop(m: Machine, c: int) returns (y: int)
    requires Ready(m)
    ensures y == Signal(m, c)
  {
    y := c;
    if m.plugboard.Some? {
      y := Permute(m.plugboard.value, c);
    }
    y := ForwardPass(m, y);
    y := BackwardPass(m, y);
    if m.plugboard.Some? {
      y := Permute(m.plugboard.value, y);
    }
  }

  /** Every slot's permutation and the plugboard are bijections, and the
      rotor of slot 0 and the plugboard are their own inverses. */
  predicate Reciprocal(m: Machine)
    requires Ready(m)
  {
    && (forall k {:trigger WellFormed(Slot(m, k).perm)} :: 0 <= k < m.numRotors ==> WellFormed(Slot(m, k).perm))
    && Involutive(Slot(m, 0).perm)
    && (m.plugboard.Some? ==> WellFormed(m.plugboard.value) && Involutive(m.plugboard.value))
  }

  /** Reciprocity depends on the wiring only, not on rotor positions. */
  lemma ReciprocalSame(m: Machine, m': Machine)
    requires Ready(m) && Ready(m') && Reciprocal(m)
    requires m' == m.(catalog := m'.catalog) && SameRotors(m.catalog, m'.catalog)
    ensures Reciprocal(m')
  {
    forall k | 0 <= k < m.numRotors
      ensures Slot(m', k).perm == Slot(m, k).perm
    {
      assert m.slots[k] in m.catalog;
    }
    forall k | 0 <= k < m.numRotors
      ensures WellFormed(Slot(m', k).perm)
    {
      assert WellFormed(Slot(m, k).perm);
    }
  }

  /** Slot `k`'s rotor going back undoes its going forward. */
  lemma SlotBackwardForward(m: Machine, k: int, c: int)
    requires Ready(m) && Reciprocal(m) && 0 <= k < m.numRotors
    requires 0 <= c < m.alphabet.Size()
    ensures Backward(m, Forward(m, c, k, k), k, k) == c
  {
    var r := Slot(m, k);
    assert RotorOk(m.alphabet, r) && WellFormed(r.perm);
    Rotors.BackwardForward(r, c);
    assert Forward(m, c, k, k) == ConvertForward(r, c);
  }

  /** Slot `k`'s rotor going forward undoes its going back. */
  lemma SlotForwardBackward(m: Machine, k: int, c: int)
    requires Ready(m) && Reciprocal(m) && 0 <= k < m.numRotors
    requires 0 <= c < m.alphabet.Size()
    ensures Forward(m, Backward(m, c, k, k), k, k) == c
  {
    var r := Slot(m, k);
    assert RotorOk(m.alphabet, r) && WellFormed(r.perm);
    Rotors.ForwardBackward(r, c);
    assert Backward(m, c, k, k) == ConvertBackward(r, c);
  }

  /** Going back through slots 1 to `i` undoes going forward through them. */
  lemma {:induction false} BackwardForward(m: Machine, c: int, i: int)
    requires Ready(m) && Reciprocal(m) && 0 <= i < m.numRotors
    requires 0 <= c < m.alphabet.Size()
    ensures Backward(m, Forward(m, c, i, 1), 1, i) == c
    decreases i
  {
    if i == 1 {
      SlotBackwardForward(m, 1, c);
    } else if i > 1 {
      var y := Forward(m, c, i, i);
      BackwardForward(m, y, i - 1);
      SlotBackwardForward(m, i, c);
    }
  }

  /** Going forward through slots `i` to 1 undoes going back through them. */
  lemma {:induction false} ForwardBackward(m: Machine, c: int, i: int)
    requires Ready(m) && Reciprocal(m) && 0 <= i < m.numRotors
    requires 0 <= c < m.alphabet.Size()
    ensures Forward(m, Backward(m, c, 1, i), i, 1) == c
    decreases i
  {
    if i == 1 {
      SlotForwardBackward(m, 1, c);
    } else if i > 1 {
      var b := Backward(m, c, 1, i - 1);
      SlotForwardBackward(m, i, b);
      ForwardBackward(m, c, i - 1);
    }
  }

  /** The forward pass down to slot 0 is the pass down to slot 1 followed
      by the reflector. */
  lemma {:induction false} ForwardSplit(m: Machine, c: int, hi: int)
    requires Ready(m) && 1 <= hi < m.numRotors
    ensures Forward(m, c, hi, 0) == Forward(m, Forward(m, c, hi, 1), 0, 0)
    decreases hi
  {
    if hi > 1 {
      ForwardSplit(m, Forward(m, c, hi, hi), hi - 1);
    }
  }

  /** An involutive plugboard undoes itself on the alphabet. */
  lemma PlugTwice(m: Machine, c: int)
    requires Ready(m) && Reciprocal(m)
    requires 0 <= c < m.alphabet.Size()
    ensures Plug(m, Plug(m, c)) == c
  {
    if m.plugboard.Some? {
      InvolutiveTwice(m.plugboard.value, c);
    }
  }

  /** An involutive slot-0 rotor undoes itself at any position. */
  lemma TurnTwice(m: Machine, c: int)
    requires Ready(m) && Reciprocal(m)
    requires 0 <= c < m.alphabet.Size()
    ensures Forward(m, Forward(m, c, 0, 0), 0, 0) == c
  {
    var r := Slot(m, 0);
    assert RotorOk(m.alphabet, r) && WellFormed(r.perm);
    ForwardTwice(r, c);
    assert Forward(m, c, 0, 0) == ConvertForward(r, c);
  }

  /** The rotors alone: forward down to the reflector and back again
      undoes itself. */
  lemma CoreInvolution(m: Machine, a: int)
    requires Ready(m) && Reciprocal(m)
    requires 0 <= a < m.alphabet.Size()
    ensures var last := m.numRotors - 1;
      Backward(m, Forward(m, Backward(m, Forward(m, a, last, 0), 1, last), last, 0), 1, last) == a
  {
    var last := m.numRotors - 1;
    var f := Forward(m, a, last, 1);
    var t := Forward(m, f, 0, 0);
    var b := Backward(m, t, 1, last);
    ForwardBackward(m, t, last);
    TurnTwice(m, f);
    BackwardForward(m, a, last);
    if last >= 1 {
      ForwardSplit(m, a, last);
      ForwardSplit(m, b, last);
    }
  }

  /** At fixed rotor positions the path is its own inverse, so the same
      routine enciphers and deciphers. */
  lemma SignalInvolution(m: Machine, c: int)
    requires Ready(m) && Reciprocal(m)
    requires 0 <= c < m.alphabet.Size()
    ensures Signal(m, Signal(m, c)) == c
  {
    var last := m.numRotors - 1;
    var a := Plug(m, c);
    assert 0 <= a < m.alphabet.Size();
    var b := Backward(m, Forward(m, a, last, 0), 1, last);
    PlugTwice(m, b);
    CoreInvolution(m, a);
    PlugTwice(m, c);
  }
}

=== FILE: stepping.dfy ===
/** The rotor-stepping loop at the start of `convert(int)`
    (Machine.java:103-112), kept exactly as written: for `i` from
    `numRotors - 1` down to `numPawls`, slot `i - 1` advances when slot `i`
    is at a notch, and then slots `i - 1` and `i - 2` advance when slot
    `i - 1` is at a notch. Each notch is read when the loop reaches it, so
    an advance made earlier in the same pass is seen. Afterwards the
    rightmost slot advances. */
module Stepping {
  import opened Alphabets
  import opened Permutations
  import opened Rotors
  import opened Machines

  /** `_rotorsOrdered.get(k).advance()`: the rotor named in slot `k`
      advances. */
  function AdvanceSlot(m: Machine, k: int): (m': Machine)
    requires Ready(m) && 0 <= k < |m.slots|
    ensures Ready(m')
    ensures m' == m.(catalog := m'.catalog) && m'.catalog.Keys == m.catalog.Keys
    ensures m'.catalog == m.catalog[m.slots[k] := Advance(Slot(m, k))]
  {
    var c := m.catalog[m.slots[k] := Advance(Slot(m, k))];
    ReadyAdvance(m, k);
    m.(catalog := c)
  }

  /** Advancing a slot keeps the machine ready. */
  lemma ReadyAdvance(m: Machine, k: int)
    requires Ready(m) && 0 <= k < |m.slots|
    ensures Ready(m.(catalog := m.catalog[m.slots[k] := Advance(Slot(m, k))]))
  {
    var n, r := m.slots[k], Advance(Slot(m, k));
    var m' := m.(catalog := m.catalog[n := r]);
    forall j | 0 <= j < |m.slots|
      ensures RotorOk(m.alphabet, Slot(m', j))
    {
      assert RotorOk(m.alphabet, Slot(m, j));
    }
  }

  /** One pass of the loop body, for slot `i`. */
  function StepAt(m: Machine, i: int): (m': Machine)
    requires Ready(m) && m.numPawls <= i < m.numRotors
    ensures Ready(m')
    ensures m' == m.(catalog := m'.catalog) && m'.catalog.Keys == m.catalog.Keys
    ensures !AtNotch(Slot(m, i)) && !AtNotch(Slot(m, i - 1)) ==> m' == m
  {
    var m1 := if AtNotch(Slot(m, i)) then AdvanceSlot(m, i - 1) else m;
    if AtNotch(Slot(m1, i - 1)) then
      AdvanceSlot(AdvanceSlot(m1, i - 1), i - 2)
    else
      m1
  }

  /** The loop from `i` down to `numPawls`. */
  function StepLoop(m: Machine, i: int): (m': Machine)
    requires Ready(m) && i < m.numRotors
    ensures Ready(m')
    ensures m' == m.(catalog := m'.catalog) && m'.catalog.Keys == m.catalog.Keys
    decreases i - m.numPawls + 1
  {
    if i > m.numPawls - 1 then StepLoop(StepAt(m, i), i - 1) else m
  }

  /** The stepping done by one `convert(int)`: the loop, then the rightmost
      slot advances. */
  function Step(m: Machine): (m': Machine)
    requires Ready(m)
    ensures Ready(m')
    ensures m' == m.(catalog := m'.catalog) && m'.catalog.Keys == m.catalog.Keys
  {
    var last := m.numRotors - 1;
    AdvanceSlot(StepLoop(m, last), last)
  }

  /** `k` successive steps. */
  function StepN(m: Machine, k: nat): (m': Machine)
    requires Ready(m)
    ensures Ready(m')
    ensures m' == m.(catalog := m'.catalog) && m'.catalog.Keys == m.catalog.Keys
    decreases k
  {
    if k == 0 then m else Step(StepN(m, k - 1))
  }

  /** One more step after `k` steps makes `k + 1`. */
  lemma StepNNext(m: Machine, k: nat, j: nat)
    requires Ready(m) && j == k + 1
    ensures Step(StepN(m, k)) == StepN(m, j)
  {
  }

  /** The loop body for slot `i` changes at most the position of a rotor. */
  lemma StepAtRotor(m: Machine, i: int, n: string)
    requires Ready(m) && m.numPawls <= i < m.numRotors && n in m.catalog
    ensures StepAt(m, i).catalog[n] == m.catalog[n].(setting := StepAt(m, i).catalog[n].setting)
  {
  }

  /** The loop changes at most the position of a rotor. */
  lemma {:induction false} StepLoopRotor(m: Machine, i: int, n: string)
    requires Ready(m) && i < m.numRotors && n in m.catalog
    ensures StepLoop(m, i).catalog[n] == m.catalog[n].(setting := StepLoop(m, i).catalog[n].setting)
    decreases i - m.numPawls + 1
  {
    if i > m.numPawls - 1 {
      StepAtRotor(m, i, n);
      StepLoopRotor(StepAt(m, i), i - 1, n);
    }
  }

  /** A step changes rotor positions only: the slots, the stored settings,
      the plugboard, the catalog's names and every rotor's name,
      permutation and notches stay as they were. */
  lemma StepSame(m: Machine)
    requires Ready(m)
    ensures Step(m) == m.(catalog := Step(m).catalog)
    ensures SameRotors(m.catalog, Step(m).catalog)
  {
    var c := Step(m).catalog;
    forall n | n in m.catalog
      ensures c[n] == m.catalog[n].(setting := c[n].setting)
    {
      StepLoopRotor(m, m.numRotors - 1, n);
    }
  }

  /** The loop body for slot `i` touches only the rotors of slots `i - 1`
      and `i - 2`. */
  lemma StepAtFrame(m: Machine, i: int, n: string)
    requires Ready(m) && m.numPawls <= i < m.numRotors
    requires n in m.catalog && forall k :: 0 <= k < i ==> m.slots[k] != n
    ensures StepAt(m, i).catalog[n] == m.catalog[n]
  {
  }

  /** The loop from `i` down touches only the rotors of slots before `i`. */
  lemma {:induction false} StepLoopFrame(m: Machine, i: int, n: string)
    requires Ready(m) && i < m.numRotors
    requires n in m.catalog && forall k :: 0 <= k < i ==> m.slots[k] != n
    ensures StepLoop(m, i).catalog[n] == m.catalog[n]
    decreases i - m.numPawls + 1
  {
    if i > m.numPawls - 1 {
      var m1 := StepAt(m, i);
      StepAtFrame(m, i, n);
      assert m1.slots == m.slots && m1.numPawls == m.numPawls;
      StepLoopFrame(m1, i - 1, n);
      var r := StepLoop(m1, i - 1);
      assert r.catalog[n] == m1.catalog[n] == m.catalog[n];
      assert StepLoop(m, i) == r;
    } else {
      assert StepLoop(m, i) == m;
    }
  }

  /** A rightmost rotor that fills no other slot advances exactly once per
      step: the loop moves only slots to its left. */
  lemma RightmostOnce(m: Machine)
    requires Ready(m)
    requires forall k :: 0 <= k < m.numRotors - 1 ==> m.slots[k] != m.slots[m.numRotors - 1]
    ensures Slot(Step(m), m.numRotors - 1) == Advance(Slot(m, m.numRotors - 1))
  {
    StepLoopFrame(m, m.numRotors - 1, m.slots[m.numRotors - 1]);
  }

  /** With no notch in slots `i` down to `numPawls - 1`, the loop from `i`
      changes nothing. */
  lemma {:induction false} StepLoopQuiet(m: Machine, i: int)
    requires Ready(m) && i < m.numRotors
    requires forall k :: m.numPawls - 1 <= k <= i ==> !AtNotch(Slot(m, k))
    ensures StepLoop(m, i) == m
    decreases i - m.numPawls + 1
  {
    if i > m.numPawls - 1 {
      assert StepAt(m, i) == m;
      StepLoopQuiet(m, i - 1);
    }
  }

  /** With no rotor of slots `numPawls - 1` to `numRotors - 1` at a notch,
      a step advances the rightmost rotor and nothing else. */
  lemma NoNotchOnlyRightmost(m: Machine)
    requires Ready(m)
    requires forall k :: m.numPawls - 1 <= k < m.numRotors ==> !AtNotch(Slot(m, k))
    ensures Step(m).catalog == m.catalog[m.slots[m.numRotors - 1] := Advance(Slot(m, m.numRotors - 1))]
  {
    StepLoopQuiet(m, m.numRotors - 1);
  }

  /** The double step, with five slots and three pawls: slot 4 not at a
      notch, slot 3 at one, and neither slot 3 nor slot 2 at a notch one
      position on. One step then advances slots 2, 3 and 4 by one each. */
  lemma DoubleStep(m: Machine)
    requires Ready(m) && m.numRotors == 5 && m.numPawls == 3
    requires m.slots[2] != m.slots[3] && m.slots[3] != m.slots[4] && m.slots[2] != m.slots[4]
    requires !AtNotch(Slot(m, 4)) && AtNotch(Slot(m, 3))
    requires !AtNotch(Advance(Slot(m, 3))) && !AtNotch(Advance(Slot(m, 2)))
    ensures Step(m).catalog ==
      m.catalog[m.slots[2] := Advance(Slot(m, 2))][m.slots[3] := Advance(Slot(m, 3))][m.slots[4] := Advance(Slot(m, 4))]
  {
    var m1 := StepAt(m, 4);
    assert m1 == AdvanceSlot(AdvanceSlot(m, 3), 2);
    assert StepAt(m1, 3) == m1;
    assert StepLoop(m1, 2) == m1;
    assert StepLoop(m, 4) == StepLoop(m1, 3);
  }

  /** Notches are read live: with five slots and three pawls, if slot 4 is
      at a notch and slot 3 reaches one by the advance this causes, slot 3
      advances again in the same pass. One step then moves slot 3 by two
      positions. */
  lemma LiveNotch(m: Machine)
    requires Ready(m) && m.numRotors == 5 && m.numPawls == 3
    requires m.slots[2] != m.slots[3] && m.slots[3] != m.slots[4] && m.slots[2] != m.slots[4]
    requires AtNotch(Slot(m, 4)) && !AtNotch(Slot(m, 3))
    requires AtNotch(Advance(Slot(m, 3))) && !AtNotch(Advance(Advance(Slot(m, 3))))
    requires !AtNotch(Advance(Slot(m, 2)))
    ensures Step(m).catalog ==
      m.catalog[m.slots[2] := Advance(Slot(m, 2))][m.slots[3] := Advance(Advance(Slot(m, 3)))][m.slots[4] := Advance(Slot(m, 4))]
  {
    var m1 := StepAt(m, 4);
    assert m1 == AdvanceSlot(AdvanceSlot(AdvanceSlot(m, 3), 3), 2);
    assert StepAt(m1, 3) == m1;
    assert StepLoop(m1, 2) == m1;
    assert StepLoop(m, 4) == StepLoop(m1, 3);
  }

  /** The slot indices the stepping loop of `convert` reads on every turn,
      whatever the notches: `get(i)` and `get(i - 1)` for `i` from
      `hi` down to `numPawls`. The constructor documents `0 <= PAWLS`. */
  function LoopReads(numPawls: int, hi: int): (r: seq<int>)
    ensures forall k :: 0 <= k < |r| ==> numPawls - 1 <= r[k] <= hi
    ensures hi >= numPawls ==> numPawls - 1 in r
    decreases hi - numPawls + 1
  {
    if hi > numPawls - 1 then [hi, hi - 1] + LoopReads(numPawls, hi - 1) else []
  }

  /** With no pawls, as the constructor's comment allows, the loop's last
      turn reads slot -1, which `ArrayList.get` rejects: no conversion can
      succeed. */
  lemma ZeroPawlsReadsBelow(numRotors: int)
    requires numRotors >= 1
    ensures -1 in LoopReads(0, numRotors - 1)
  {
  }

  /** With at least one pawl, the bound the model's machines keep, every
      slot the loop reads on every turn lies in `0 .. hi`, where `hi` is
      `numRotors - 1`. */
  lemma LoopReadsInRange(numPawls: int, hi: int)
    requires 1 <= numPawls
    ensures forall k :: 0 <= k < |LoopReads(numPawls, hi)| ==> 0 <= LoopReads(numPawls, hi)[k] <= hi
  {
  }
}

=== FILE: text.dfy ===
/** Character and string helpers shared by the cipher engine and the
    output formatter: Java's `indexOf`, ASCII upper-casing and the
    regular-expression class `\s`. */
module Text {

  /** The position of the first occurrence of `x` in `s` (Java's `indexOf`). */
  function IndexOf<T(==)>(s: seq<T>, x: T): (i: nat)
    requires x in s
    ensures i < |s| && s[i] == x
  {
    IndexFromFound(s, x, 0);
    IndexFrom(s, x, 0)
  }

  /** The position of the first occurrence of `x` in `s` at or after `k`,
      or `|s|` when there is none. */
  function IndexFrom<T(==)>(s: seq<T>, x: T, k: nat): (i: nat)
    requires k <= |s|
    ensures k <= i <= |s|
    ensures i < |s| ==> s[i] == x
    decreases |s| - k
  {
    if k == |s| || s[k] == x then k else IndexFrom(s, x, k + 1)
  }

  /** No occurrence of `x` is skipped: every element between `k` and the
      position found differs from `x`. */
  lemma {:induction false} IndexFromFirst<T>(s: seq<T>, x: T, k: nat, j: int)
    requires k <= |s| && k <= j < IndexFrom(s, x, k)
    ensures s[j] != x
    decreases |s| - k
  {
    if j > k {
      IndexFromFirst(s, x, k + 1, j);
    }
  }

  /** An occurrence at or after `k` is found. */
  lemma IndexFromFound<T>(s: seq<T>, x: T, k: nat)
    requires k <= |s|
    ensures x in s[k..] ==> IndexFrom(s, x, k) < |s|
  {
    if x in s[k..] && IndexFrom(s, x, k) == |s| {
      var j :| k <= j < |s| && s[j] == x;
      IndexFromFirst(s, x, k, j);
    }
  }

  /** `IndexOf` finds the first occurrence. */
  lemma IndexOfFirst<T>(s: seq<T>, x: T, j: int)
    requires x in s
    requires 0 <= j < IndexOf(s, x)
    ensures s[j] != x
  {
    IndexFromFirst(s, x, 0, j);
  }

  lemma IndexOfBefore<T>(s: seq<T>, x: T)
    requires x in s
    ensures forall j :: 0 <= j < IndexOf(s, x) ==> s[j] != x
  {
    forall j | 0 <= j < IndexOf(s, x) {
      IndexOfFirst(s, x, j);
    }
  }

  /** A non-empty sequence is its front followed by its last element. */
  lemma FrontLast<T>(s: seq<T>)
    requires s != []
    ensures s[..|s| - 1] + [s[|s| - 1]] == s
  {
  }

  /** A prefix of a prefix is a prefix, and the full-length prefix is the
      sequence itself. */
  lemma PrefixOfPrefix<T>(s: seq<T>, n: int, j: int)
    requires 0 <= j <= n <= |s|
    ensures s[..n][..j] == s[..j]
    ensures j == |s| ==> s[..j] == s
    ensures j == 0 ==> s[..j] == []
  {
  }

  /** Appending to the empty sequence. */
  lemma EmptyAppend<T>(s: seq<T>, t: seq<T>)
    requires s == []
    ensures s + t == t
  {
  }

  /** The strings of `ss` written one after the other. */
  function Flatten(ss: seq<string>): string {
    if ss == [] then "" else ss[0] + Flatten(ss[1..])
  }

  /** Flattening a sequence with one more string at the end appends it. */
  lemma {:induction false} FlattenSnoc(ss: seq<string>, x: string)
    ensures Flatten(ss + [x]) == Flatten(ss) + x
    decreases |ss|
  {
    if ss == [] {
      assert ss + [x] == [x];
    } else {
      assert (ss + [x])[1..] == ss[1..] + [x];
      FlattenSnoc(ss[1..], x);
    }
  }

  /** A symbol of the flattened sequence comes from one of its strings. */
  lemma {:induction false} FlattenHas(ss: seq<string>, c: char)
    requires c in Flatten(ss)
    ensures exists k :: 0 <= k < |ss| && c in ss[k]
    decreases |ss|
  {
    if c !in ss[0] {
      FlattenHas(ss[1..], c);
      var k :| 0 <= k < |ss[1..]| && c in ss[1..][k];
      assert c in ss[k + 1];
    }
  }

  /** No element occurs twice. */
  predicate Distinct<T(==)>(s: seq<T>) {
    forall i, j :: 0 <= i < j < |s| ==> s[i] != s[j]
  }

  /** In a duplicate-free sequence the first occurrence is the only one. */
  lemma IndexOfDistinct<T>(s: seq<T>, i: int)
    requires Distinct(s)
    requires 0 <= i < |s|
    ensures IndexOf(s, s[i]) == i
  {
    var k := IndexOf(s, s[i]);
    assert !(k < i) && !(i < k);
  }

  /** Java's `Character.toUpperCase`, restricted to ASCII. */
  function UpperChar(c: char): (u: char)
    ensures 'a' <= c <= 'z' ==> 'A' <= u <= 'Z' && u as int == c as int - 32
    ensures !('a' <= c <= 'z') ==> u == c
  {
    if 'a' <= c <= 'z' then (c as int - 32) as char else c
  }

  /** Java's `String.toUpperCase`, restricted to ASCII. */
  function Upper(s: string): (u: string)
    ensures |u| == |s|
    ensures forall i :: 0 <= i < |s| ==> u[i] == UpperChar(s[i])
  {
    seq(|s|, i requires 0 <= i < |s| => UpperChar(s[i]))
  }

  /** The characters matched by the regular-expression class `\s`:
      space, tab, newline, vertical tab, form feed and carriage return. */
  predicate IsWhitespace(c: char) {
    c == ' ' || c == '\t' || c == '\n' || c == '\U{B}' || c == '\U{C}' || c == '\r'
  }

  /** `s.replaceAll("\\s", "")`. */
  function RemoveWhitespace(s: string): (r: string)
    ensures forall i :: 0 <= i < |r| ==> !IsWhitespace(r[i])
    ensures |r| <= |s|
  {
    if s == [] then []
    else if IsWhitespace(s[0]) then RemoveWhitespace(s[1..])
    else [s[0]] + RemoveWhitespace(s[1..])
  }

  /** Removing whitespace distributes over concatenation. */
  lemma {:induction false} RemoveWhitespaceAppend(s: string, t: string)
    ensures RemoveWhitespace(s + t) == RemoveWhitespace(s) + RemoveWhitespace(t)
    decreases |s|
  {
    if s == [] {
      assert s + t == t;
    } else {
      assert (s + t)[0] == s[0] && (s + t)[1..] == s[1..] + t;
      RemoveWhitespaceAppend(s[1..], t);
    }
  }

  /** A text without whitespace is left as it is. */
  lemma {:induction false} RemoveWhitespaceKeeps(s: string)
    requires forall i :: 0 <= i < |s| ==> !IsWhitespace(s[i])
    ensures RemoveWhitespace(s) == s
    decreases |s|
  {
    if s != [] {
      RemoveWhitespaceKeeps(s[1..]);
    }
  }

  /** The number of characters of `s` other than `c`. */
  function CountOther(s: string, c: char): (n: nat)
    ensures n <= |s|
  {
    if s == [] then 0 else CountOther(s[..|s| - 1], c) + (if s[|s| - 1] == c then 0 else 1)
  }

  /** The count grows by one exactly with a last character other than `c`. */
  lemma CountOtherLast(s: string, c: char)
    requires s != []
    ensures s[|s| - 1] == c ==> CountOther(s, c) == CountOther(s[..|s| - 1], c)
    ensures s[|s| - 1] != c ==> CountOther(s, c) == CountOther(s[..|s| - 1], c) + 1
  {
  }
}

=== FILE: unit_vectors.dfy ===
/** The concrete expectations of the repository's unit test
    (UnitTest.java:19-41), over the alphabet A to Z. Each fact is proved in
    a small lemma of its own and the statements the test makes are
    assembled from them at the end. */
module UnitVectors {
  import opened Text
  import opened Alphabets
  import opened Permutations
  import opened CycleParsing

  /** The character range 'A' to 'Z' the test builds. */
  function AZ(): Alphabet {
    Range('A', 'Z')
  }

  /** The cycles of the first test string, which ends in the singleton (S). */
  function Cycles1(): seq<string> {
    ["AELTPHQXRU", "BKNW", "CMOY", "DFG", "IV", "JZ", "S"]
  }

  /** The cycles of the second test string, which ends in (JZS). */
  function Cycles2(): seq<string> {
    ["AELTPHQXRU", "BKNW", "CMOY", "DFG", "IV", "JZS"]
  }

  function Test1(): Permutation {
    NewPermutation("(AELTPHQXRU) " + "(BKNW) (CMOY) (DFG) (IV) (JZ) (S)", AZ())
  }

  function Test2(): Permutation {
    NewPermutation("(AELTPHQXRU) " + "(BKNW) (CMOY) (DFG) (IV) (JZS)", AZ())
  }

  // ---- The test strings decode to the cycles written ----

  lemma FormatCons(c: string, rest: seq<string>)
    requires rest != []
    ensures Format([c] + rest) == "(" + c + ") " + Format(rest)
  {
    assert ([c] + rest)[1..] == rest;
  }

  lemma FormatS()
    ensures Format(["S"]) == "(S)"
  {
  }

  lemma FormatJZS()
    ensures Format(["JZS"]) == "(JZS)"
  {
  }

  lemma GlueJZ()
    ensures "(" + "JZ" + ") " + "(S)" == "(JZ) (S)"
  {
  }

  lemma FormatJZ()
    ensures Format(["JZ", "S"]) == "(JZ) (S)"
  {
    FormatS();
    FormatCons("JZ", ["S"]);
    GlueJZ();
    assert ["JZ", "S"] == ["JZ"] + ["S"];
  }

  lemma GlueIV1()
    ensures "(" + "IV" + ") " + "(JZ) (S)" == "(IV) (JZ) (S)"
  {
  }

  lemma FormatIV1()
    ensures Format(["IV", "JZ", "S"]) == "(IV) (JZ) (S)"
  {
    FormatJZ();
    FormatCons("IV", ["JZ", "S"]);
    GlueIV1();
    assert ["IV", "JZ", "S"] == ["IV"] + ["JZ", "S"];
  }

  lemma GlueDFG1()
    ensures "(" + "DFG" + ") " + "(IV) (JZ) (S)" == "(DFG) (IV) (JZ) (S)"
  {
  }

  lemma FormatDFG1()
    ensures Format(["DFG", "IV", "JZ", "S"]) == "(DFG) (IV) (JZ) (S)"
  {
    FormatIV1();
    FormatCons("DFG", ["IV", "JZ", "S"]);
    GlueDFG1();
    assert ["DFG", "IV", "JZ", "S"] == ["DFG"] + ["IV", "JZ", "S"];
  }

  lemma GlueCMOY1()
    ensures "(" + "CMOY" + ") " + "(DFG) (IV) (JZ) (S)" == "(CMOY) (DFG) (IV) (JZ) (S)"
  {
  }

  lemma FormatCMOY1()
    ensures Format(["CMOY", "DFG", "IV", "JZ", "S"]) == "(CMOY) (DFG) (IV) (JZ) (S)"
  {
    FormatDFG1();
    FormatCons("CMOY", ["DFG", "IV", "JZ", "S"]);
    GlueCMOY1();
    assert ["CMOY", "DFG", "IV", "JZ", "S"] == ["CMOY"] + ["DFG", "IV", "JZ", "S"];
  }

  lemma GlueBKNW1()
    ensures "(" + "BKNW" + ") " + "(CMOY) (DFG) (IV) (JZ) (S)" == "(BKNW) (CMOY) (DFG) (IV) (JZ) (S)"
  {
  }

  lemma FormatBKNW1()
    ensures Format(["BKNW", "CMOY", "DFG", "IV", "JZ", "S"]) == "(BKNW) (CMOY) (DFG) (IV) (JZ) (S)"
  {
    FormatCMOY1();
    FormatCons("BKNW", ["CMOY", "DFG", "IV", "JZ", "S"]);
    GlueBKNW1();
    assert ["BKNW", "CMOY", "DFG", "IV", "JZ", "S"] == ["BKNW"] + ["CMOY", "DFG", "IV", "JZ", "S"];
  }

  lemma Format1()
    ensures Format(Cycles1()) == "(AELTPHQXRU) " + "(BKNW) (CMOY) (DFG) (IV) (JZ) (S)"
  {
    assert "(" + "AELTPHQXRU" + ") " == "(AELTPHQXRU) ";
    FormatBKNW1();
    FormatCons("AELTPHQXRU", ["BKNW", "CMOY", "DFG", "IV", "JZ", "S"]);
    assert Cycles1() == ["AELTPHQXRU"] + ["BKNW", "CMOY", "DFG", "IV", "JZ", "S"];
  }

  lemma GlueIV2()
    ensures "(" + "IV" + ") " + "(JZS)" == "(IV) (JZS)"
  {
  }

  lemma FormatIV2()
    ensures Format(["IV", "JZS"]) == "(IV) (JZS)"
  {
    FormatJZS();
    FormatCons("IV", ["JZS"]);
    GlueIV2();
    assert ["IV", "JZS"] == ["IV"] + ["JZS"];
  }

  lemma GlueDFG2()
    ensures "(" + "DFG" + ") " + "(IV) (JZS)" == "(DFG) (IV) (JZS)"
  {
  }

  lemma FormatDFG2()
    ensures Format(["DFG", "IV", "JZS"]) == "(DFG) (IV) (JZS)"
  {
    FormatIV2();
    FormatCons("DFG", ["IV", "JZS"]);
    GlueDFG2();
    assert ["DFG", "IV", "JZS"] == ["DFG"] + ["IV", "JZS"];
  }

  lemma GlueCMOY2()
    ensures "(" + "CMOY" + ") " + "(DFG) (IV) (JZS)" == "(CMOY) (DFG) (IV) (JZS)"
  {
  }

  lemma FormatCMOY2()
    ensures Format(["CMOY", "DFG", "IV", "JZS"]) == "(CMOY) (DFG) (IV) (JZS)"
  {
    FormatDFG2();
    FormatCons("CMOY", ["DFG", "IV", "JZS"]);
    GlueCMOY2();
    assert ["CMOY", "DFG", "IV", "JZS"] == ["CMOY"] + ["DFG", "IV", "JZS"];
  }

  lemma GlueBKNW2()
    ensures "(" + "BKNW" + ") " + "(CMOY) (DFG) (IV) (JZS)" == "(BKNW) (CMOY) (DFG) (IV) (JZS)"
  {
  }

  lemma FormatBKNW2()
    ensures Format(["BKNW", "CMOY", "DFG", "IV", "JZS"]) == "(BKNW) (CMOY) (DFG) (IV) (JZS)"
  {
    FormatCMOY2();
    FormatCons("BKNW", ["CMOY", "DFG", "IV", "JZS"]);
    GlueBKNW2();
    assert ["BKNW", "CMOY", "DFG", "IV", "JZS"] == ["BKNW"] + ["CMOY", "DFG", "IV", "JZS"];
  }

  lemma Format2()
    ensures Format(Cycles2()) == "(AELTPHQXRU) " + "(BKNW) (CMOY) (DFG) (IV) (JZS)"
  {
    assert "(" + "AELTPHQXRU" + ") " == "(AELTPHQXRU) ";
    FormatBKNW2();
    FormatCons("AELTPHQXRU", ["BKNW", "CMOY", "DFG", "IV", "JZS"]);
    assert Cycles2() == ["AELTPHQXRU"] + ["BKNW", "CMOY", "DFG", "IV", "JZS"];
  }

  /** Every symbol written in a cycle occurs in its cycle notation. */
  lemma {:induction false} FlattenInFormat(cs: seq<string>, c: char)
    requires c in Flatten(cs)
    ensures c in Format(cs)
  {
    var f := Format(cs);
    var tail := if |cs| == 1 then "" else " " + Format(cs[1..]);
    assert f == "(" + cs[0] + ")" + tail;
    if c in cs[0] {
      var i :| 0 <= i < |cs[0]| && cs[0][i] == c;
      assert f[1 + i] == cs[0][i];
    } else {
      assert Flatten(cs) == cs[0] + Flatten(cs[1..]);
      assert c in Flatten(cs[1..]);
      FlattenInFormat(cs[1..], c);
      var g := Format(cs[1..]);
      var i :| 0 <= i < |g| && g[i] == c;
      assert tail == " " + g;
      assert f[|cs[0]| + 3 + i] == g[i];
    }
  }

  lemma Flatten1()
    ensures Flatten(Cycles1()) == "AELTPHQXRUBKNWCMOYDFGIVJZS"
  {
    var cs := Cycles1();
    assert Flatten(cs[6..]) == "S";
    assert Flatten(cs[5..]) == "JZS";
  }

  lemma Flatten2()
    ensures Flatten(Cycles2()) == "AELTPHQXRUBKNWCMOYDFGIVJZS"
  {
    var cs := Cycles2();
    assert Flatten(cs[5..]) == "JZS";
  }

  lemma AllLettersWritten()
    ensures forall c :: c in "ABCDEFGHIJKLMNOPQRSTUVWXYZ" ==> c in "AELTPHQXRUBKNWCMOYDFGIVJZS"
  {
  }

  /** No implicit singleton is added when every letter is written. */
  lemma NoneMissing(letters: string, alphabet: Alphabet, spec: string)
    requires forall c :: c in letters ==> c in spec
    ensures MissingLetters(letters, alphabet, spec) == []
  {
  }

  lemma AllWritable1()
    ensures forall i :: 0 <= i < |Cycles1()| ==> Writable(Cycles1()[i])
  {
  }

  lemma AllWritable2()
    ensures forall i :: 0 <= i < |Cycles2()| ==> Writable(Cycles2()[i])
  {
  }

  /** Cycles that write every letter once each decode to themselves: no
      implicit singleton is added. */
  lemma DecodeAllLetters(cs: seq<string>, spec: string)
    requires forall i :: 0 <= i < |cs| ==> Writable(cs[i])
    requires Flatten(cs) == "AELTPHQXRUBKNWCMOYDFGIVJZS"
    requires Format(cs) == spec
    ensures NewPermutation(spec, AZ()) == Permutation(AZ(), cs)
  {
    ParseFormat(cs, AZ());
    NoneMissingIn(cs);
    assert cs + [] == cs;
    assert ListOfCycles(Format(cs), AZ()) == cs;
  }

  lemma NoneMissingIn(cs: seq<string>)
    requires Flatten(cs) == "AELTPHQXRUBKNWCMOYDFGIVJZS"
    ensures MissingLetters(Letters, AZ(), Format(cs)) == []
  {
    LettersInFormat(cs);
    NoneMissing(Letters, AZ(), Format(cs));
  }

  lemma LettersInFormat(cs: seq<string>)
    requires Flatten(cs) == "AELTPHQXRUBKNWCMOYDFGIVJZS"
    ensures forall c :: c in Letters ==> c in Format(cs)
  {
    AllLettersWritten();
    forall c | c in Letters
      ensures c in Format(cs)
    {
      FlattenInFormat(cs, c);
    }
  }

  /** The first test string decodes to exactly the cycles written. */
  lemma Decode1()
    ensures Test1() == Permutation(AZ(), Cycles1())
  {
    Format1();
    Flatten1();
    AllWritable1();
    DecodeAllLetters(Cycles1(), "(AELTPHQXRU) " + "(BKNW) (CMOY) (DFG) (IV) (JZ) (S)");
  }

  /** The second test string decodes to exactly the cycles written. */
  lemma Decode2()
    ensures Test2() == Permutation(AZ(), Cycles2())
  {
    Format2();
    Flatten2();
    AllWritable2();
    DecodeAllLetters(Cycles2(), "(AELTPHQXRU) " + "(BKNW) (CMOY) (DFG) (IV) (JZS)");
  }

  // ---- The character forms ----

  /** The cycle list of the first test string, element by element. */
  predicate IsCycles1(cs: seq<string>) {
    && |cs| == 7 && cs[0] == "AELTPHQXRU" && cs[1] == "BKNW" && cs[2] == "CMOY"
    && cs[3] == "DFG" && cs[4] == "IV" && cs[5] == "JZ" && cs[6] == "S"
  }

  /** A cycle that does not hold `c` is passed over. */
  lemma SkipCycle(cs: seq<string>, c: char, k: nat)
    requires k < |cs| && c !in cs[k]
    ensures SuccessorFrom(cs, c, k) == SuccessorFrom(cs, c, k + 1)
    ensures PredecessorFrom(cs, c, k) == PredecessorFrom(cs, c, k + 1)
  {
  }

  /** Cycles `k` to `m - 1` are passed over. */
  lemma SkipCycles(cs: seq<string>, c: char, k: nat, m: nat)
    requires k <= m < |cs|
    requires forall j :: k <= j < m ==> c !in cs[j]
    ensures SuccessorFrom(cs, c, k) == SuccessorFrom(cs, c, m)
    ensures PredecessorFrom(cs, c, k) == PredecessorFrom(cs, c, m)
    decreases m - k
  {
    if k < m {
      SkipCycle(cs, c, k);
      SkipCycles(cs, c, k + 1, m);
    }
  }

  /** The neighbours of the `i`-th symbol of cycle `k`, found there. */
  lemma InCycle(cs: seq<string>, k: nat, i: int)
    requires k < |cs| && 0 <= i < |cs[k]|
    requires forall j :: 0 <= j < i ==> cs[k][j] != cs[k][i]
    ensures SuccessorFrom(cs, cs[k][i], k) == cs[k][if i + 1 == |cs[k]| then 0 else i + 1]
    ensures PredecessorFrom(cs, cs[k][i], k) == cs[k][if i == 0 then |cs[k]| - 1 else i - 1]
  {
    var x := cs[k];
    var j := IndexOf(x, x[i]);
    if i < j {
      IndexOfFirst(x, x[i], i);
    }
  }

  lemma PermuteU(cs: seq<string>)
    requires IsCycles1(cs)
    ensures Successor(cs, 'U') == 'A'
  {
    InCycle(cs, 0, 9);
  }

  lemma InvertA(cs: seq<string>)
    requires IsCycles1(cs)
    ensures Predecessor(cs, 'A') == 'U'
  {
    InCycle(cs, 0, 0);
  }

  lemma FixedS(cs: seq<string>)
    requires IsCycles1(cs)
    ensures Successor(cs, 'S') == 'S'
    ensures Predecessor(cs, 'S') == 'S'
  {
    SkipCycles(cs, 'S', 0, 6);
    InCycle(cs, 6, 0);
  }

  lemma PermuteB(cs: seq<string>)
    requires IsCycles1(cs)
    ensures Successor(cs, 'B') == 'K'
  {
    SkipCycle(cs, 'B', 0);
    InCycle(cs, 1, 0);
  }

  lemma StepV(cs: seq<string>)
    requires IsCycles1(cs)
    ensures Successor(cs, 'V') == 'I'
    ensures Predecessor(cs, 'V') == 'I'
  {
    SkipCycles(cs, 'V', 0, 4);
    InCycle(cs, 4, 1);
  }

  lemma PermuteF(cs: seq<string>)
    requires IsCycles1(cs)
    ensures Successor(cs, 'F') == 'G'
  {
    SkipCycles(cs, 'F', 0, 3);
    InCycle(cs, 3, 1);
  }

  lemma InvertW(cs: seq<string>)
    requires IsCycles1(cs)
    ensures Predecessor(cs, 'W') == 'N'
  {
    SkipCycle(cs, 'W', 0);
    InCycle(cs, 1, 3);
  }

  // ---- The int forms ----

  lemma CharAt5()
    ensures AZ().ToChar(5) == 'F'
  {
  }

  lemma IndexOfG()
    ensures AZ().Contains('G') && AZ().ToInt('G') == 6
  {
    RangeIndex('A', 'Z', 'G');
  }

  lemma CharAt22()
    ensures AZ().ToChar(22) == 'W'
  {
  }

  lemma IndexOfN()
    ensures AZ().Contains('N') && AZ().ToInt('N') == 13
  {
    RangeIndex('A', 'Z', 'N');
  }

  lemma InAlphabet1()
    ensures InAlphabet(Permutation(AZ(), Cycles1()))
  {
    Flatten1();
    forall k, c | 0 <= k < |Cycles1()| && c in Cycles1()[k]
      ensures AZ().Contains(c)
    {
      var i :| 0 <= i < |Cycles1()[k]| && Cycles1()[k][i] == c;
      FlattenHolds(Cycles1(), k, i);
      AllCapitals();
      RangeIndex('A', 'Z', c);
    }
  }

  lemma AllCapitals()
    ensures forall c :: c in "AELTPHQXRUBKNWCMOYDFGIVJZS" ==> 'A' <= c <= 'Z'
  {
  }

  /** A symbol written in cycle `k` occurs in the flattened cycles. */
  lemma {:induction false} FlattenHolds(cs: seq<string>, k: int, i: int)
    requires 0 <= k < |cs| && 0 <= i < |cs[k]|
    ensures cs[k][i] in Flatten(cs)
  {
    if k == 0 {
      assert Flatten(cs)[i] == cs[0][i];
    } else {
      FlattenHolds(cs[1..], k - 1, i);
      var f := Flatten(cs[1..]);
      var j :| 0 <= j < |f| && f[j] == cs[k][i];
      assert Flatten(cs)[|cs[0]| + j] == cs[k][i];
    }
  }

  lemma Permute5()
    ensures InAlphabet(Permutation(AZ(), Cycles1()))
    ensures Permute(Permutation(AZ(), Cycles1()), 5) == 6
  {
    var p := Permutation(AZ(), Cycles1());
    InAlphabet1();
    WrapSmall(p, 5);
    CharAt5();
    PermuteF(Cycles1());
    IndexOfG();
  }

  lemma Invert22()
    ensures InAlphabet(Permutation(AZ(), Cycles1()))
    ensures Invert(Permutation(AZ(), Cycles1()), 22) == 13
  {
    var p := Permutation(AZ(), Cycles1());
    InAlphabet1();
    WrapSmall(p, 22);
    CharAt22();
    InvertW(Cycles1());
    IndexOfN();
  }

  lemma Singleton1()
    ensures !Derangement(Permutation(AZ(), Cycles1()))
  {
    assert |Cycles1()[6]| == 1;
  }

  lemma NoSingleton2()
    ensures Derangement(Permutation(AZ(), Cycles2()))
  {
  }

  /** The character-form assertions of the unit test, on the
      permutation decoded from its first cycle string. */
  lemma CharVectors()
    ensures PermuteChar(Test1(), 'U') == 'A'
    ensures InvertChar(Test1(), 'A') == 'U'
    ensures PermuteChar(Test1(), 'S') == 'S'
    ensures InvertChar(Test1(), 'S') == 'S'
    ensures PermuteChar(Test1(), 'B') == 'K'
    ensures PermuteChar(Test1(), 'V') == 'I'
    ensures InvertChar(Test1(), 'V') == 'I'
  {
    Decode1();
    Cycles1Shape();
    CharVectorsOf(Cycles1());
  }

  lemma Cycles1Shape()
    ensures IsCycles1(Cycles1())
  {
  }

  lemma CharVectorsOf(cs: seq<string>)
    requires IsCycles1(cs)
    ensures Successor(cs, 'U') == 'A' && Predecessor(cs, 'A') == 'U'
    ensures Successor(cs, 'S') == 'S' && Predecessor(cs, 'S') == 'S'
    ensures Successor(cs, 'B') == 'K'
    ensures Successor(cs, 'V') == 'I' && Predecessor(cs, 'V') == 'I'
  {
    PermuteU(cs);
    InvertA(cs);
    FixedS(cs);
    PermuteB(cs);
    StepV(cs);
  }

  /** The int-form assertions of the unit test. */
  lemma IntVectors()
    ensures Size(Test1()) > 0 && InAlphabet(Test1())
    ensures Permute(Test1(), 5) == 6
    ensures Invert(Test1(), 22) == 13
  {
    Decode1();
    Permute5();
    Invert22();
  }

  /** The derangement assertions of the unit test: the first string keeps
      the singleton (S), the second has none. */
  lemma DerangementVectors()
    ensures !Derangement(Test1())
    ensures Derangement(Test2())
  {
    Decode1();
    Decode2();
    Singleton1();
    NoSingleton2();
  }
}
